=== FILE: README.md ===
# Arr helpers, modelled in Dafny

This project models the array helpers of the PHP class `EM\Utils\Arr`
(file `Arr.php`). Four of them, `chunk`, `map`, `flatten` and `duplicates`,
accept an `iterable`. For `chunk`, `map` and `flatten` a Traversable is
walked by a generator, while a plain array falls back to the matching PHP
built-in. `duplicates` is the exception: its Traversable branch is a plain
`foreach` that tallies eagerly and returns an array, and its array fallback,
`array_unique`, computes something else. The fifth helper, `range`, takes
three numbers and is a generator itself. The model covers all five:

- `chunk`: cuts the input into arrays of `chunk_size` pulled elements. Keys
  are kept or the chunk is re-indexed.
- `map`: applies a callable to every value and keeps the keys.
- `flatten`: walks nested arrays depth first. The array branch keeps only
  the values. The Traversable branch is modelled as the intended walk, which
  yields each leaf under its innermost key; as written it fails at the first
  nested array (see Findings).
- `duplicates`: counts trimmed, optionally lower-cased column values and
  keeps those seen more than once.
- `range`: the inclusive arithmetic progression from `start` towards `stop`.

A PHP array or a Traversable's output is modelled as an ordered list of
key/value pairs (`PhpArrays.Pairs`). The keys of an array are distinct, and a
Traversable may repeat one. `$a[$k] = $v` and `$a[] = $v` are
`PhpArrays.Assign` and `PhpArrays.Push`. An `iterable` argument is
`PhpArrays.Iterable`, either `Array` or `Traversable`. The generator of
`chunk` is modelled twice:

- as an imperative loop with the same counter and pending chunk
  (`Chunking.Generate`);
- as a functional definition: consecutive runs of `chunk_size` pairs, each
  pulled into a fresh array (`Chunking.GeneratorChunks`).

The loop is proved equal to the functional definition. On arrays, that
definition is proved equal to an independent model of `array_chunk`.

Modules and files:

- `results.dfy`: `Option` and `Result`.
- `ints.dfy`: `Min`, `Max`, `Abs` and the facts about Euclidean division the
  chunk and range counts rest on.
- `php_arrays.dfy`: keys, pair lists, array writes and `iterable`.
- `chunking.dfy`: `chunk`.
- `mapping.dfy`: `map`.
- `flattening.dfy`: `flatten`.
- `duplicates.dfy`: `duplicates`, with ASCII `trim` and `strtolower`.
- `ranges.dfy`: `range`.

## Model

| member | source | states |
|---|---|---|
| PhpArrays.Assign | Arr.php:56 | after `$chunk[$key] = $value` every entry under the written key holds the new value, and the array grows by one entry exactly when the key was not there before |
| PhpArrays.AssignSemantics | Arr.php:55-56 | `$chunk[$key] = $value` keeps the key order when the key exists and appends the new pair at the end otherwise; every entry under another key keeps its position; the result holds the written pair and no pair that was not there before; an array's keys stay distinct |
| PhpArrays.NextIndex | Arr.php:58 | the key chosen by `$chunk[] = $value` is greater than every integer key already present |
| PhpArrays.Push | Arr.php:58 | `$chunk[] = $value` appends one pair at the end under the next free integer key |
| PhpArrays.PushKeepsKeysUnique | Arr.php:58 | appending keeps an array's keys distinct |
| PhpArrays.NextIndexOfReindex | Arr.php:58 | after values have been appended to an empty array, the next append uses key `n`, the number of values |
| Chunking.Slices | Arr.php:61-71 | the runs the counter delimits are non-empty, hold at most `chunk_size` pulls, and all but the last hold exactly `chunk_size` |
| Chunking.SlicesFlatten | Arr.php:54-72 | the runs, put back together, are the whole input in order |
| Chunking.Pull | Arr.php:55-59 | with preserved keys the pulled key holds the pulled value, the chunk grows only for a new key, and every entry under another key stays where it was; without, the pulled value is appended after the untouched chunk |
| Chunking.Collect | Arr.php:53-59 | a pending chunk has at most one entry per pull, is non-empty once anything was pulled, and has exactly one entry per pull without preserved keys |
| Chunking.GeneratorChunks | Arr.php:51-73 | the generator yields one chunk per run of `chunk_size` pulls, and each chunk holds between 1 and `chunk_size` entries |
| Chunking.ArrayChunk | Arr.php:79 | `array_chunk` gives one chunk per run of `chunk_size` entries, and each chunk holds between 1 and `chunk_size` entries |
| Chunking.SlicesCount | Arr.php:54-71 | `n` pulls make `ceil(n / chunk_size)` runs |
| Chunking.ChunkCount | Arr.php:51-79 | a Traversable of `n` pairs and an array of `n` entries both make `ceil(n / chunk_size)` chunks |
| Chunking.CollectIsArray | Arr.php:53-59 | a pending chunk is a PHP array with at most as many entries as pulls and at least one if anything was pulled; with preserved keys its key set is the set of pulled keys |
| Chunking.Generate | Arr.php:51-73 | the counter-and-buffer generator yields exactly the chunks of consecutive runs of `chunk_size` pulls, including the final partial run |
| Chunking.PendingStep | Arr.php:55-67 | one pull adds the pair to the pending chunk; when the counter reaches `chunk_size` that chunk is emitted and an empty one starts, and the generator state stays consistent with the input consumed |
| Chunking.PendingDone | Arr.php:69-71 | at the end of the input, emitting the pending chunk only when it is non-empty completes the chunks of all runs |
| Chunking.Chunk | Arr.php:42-80 | a non-positive chunk size gives `false`; otherwise the result is the generator's chunks on a Traversable and `array_chunk` on an array |
| Chunking.ArrayChunkAgrees | Arr.php:79 | on an array, `array_chunk` and the generator give the same chunks, with and without preserved keys |
| Chunking.EmittedAreGeneratorChunks | Arr.php:63-71 | emitting each full run as the counter reaches `chunk_size`, then the partial one, gives the chunks of all runs |
| Chunking.CollectReindexes | Arr.php:58 | without preserved keys a chunk holds the pulled values under the keys 0, 1, 2, ... |
| Chunking.CollectOfArrayIsIdentity | Arr.php:56 | with preserved keys, pulling entries whose keys do not repeat rebuilds them unchanged |
| Chunking.CollectCountsDistinctKeys | Arr.php:55-61 | with preserved keys a chunk has one entry per distinct key pulled, since `$count` counts pulls and a repeated key overwrites |
| Chunking.RepeatedKeyShrinksChunk | Arr.php:55-63 | a run that repeats a key gives a chunk with fewer entries than pulls |
| Chunking.ShortChunkAfterRepeatedKey | Arr.php:55-64 | a full run that repeats a key is emitted with fewer than `chunk_size` entries |
| Chunking.SliceAt | Arr.php:61-67 | run `i` is the contiguous input slice that starts at `i * chunk_size` |
| Chunking.SlicesAt | Arr.php:61-67 | every run `i` is the contiguous input slice from `i * chunk_size` up to `chunk_size` pulls later or the end of the input |
| Chunking.ChunkShape | Arr.php:54-72 | no chunk is empty or larger than `chunk_size`; without preserved keys every chunk but the last has exactly `chunk_size` entries and is keyed 0..len-1 |
| Chunking.ChunkValuesRoundTrip | Arr.php:54-72 | without preserved keys, the chunks' values in order are the input's values |
| Chunking.CollectPairsArePulled | Arr.php:54-59 | with preserved keys every pair of a chunk is one of the pairs pulled into it |
| Chunking.LastPullWins | Arr.php:54-59 | with preserved keys, the last pull of each key is in the chunk, key and value, since a later pull of that key overwrites it and a pull of another key leaves it in place |
| Chunking.CollectKeyOrder | Arr.php:54-59 | with preserved keys a chunk's keys are the pulled keys in the order each was first pulled |
| Chunking.PreservedChunkPairsAt | Arr.php:54-72 | with preserved keys and any input, repeated keys included, chunk `i` lists the keys of run `i` in first-pull order, holds only pairs of that run, and holds each pair that is the run's last pull of its key |
| Chunking.PreservedChunkPairs | Arr.php:54-72 | the same for every chunk the generator yields |
| Chunking.PreservedChunksAreSlices | Arr.php:54-72 | with preserved keys and distinct input keys, chunk `i` is the input slice at `i * chunk_size`, and the chunks together are the input |
| Mapping.MapValues | Arr.php:89-92 | the output has the input's length, and position `i` holds the input's key `i` with the function applied to value `i` |
| Mapping.Map | Arr.php:82-99 | both branches keep the keys in order and apply the function to every value; an array stays an array with distinct keys |
| Mapping.MapEmpty | Arr.php:89-98 | empty input gives empty output |
| Mapping.MapValuesAppend | Arr.php:90-92 | mapping is pair by pair: mapping a concatenation is concatenating the mappings |
| Flattening.WalkPairs | Arr.php:127-133 | the pairs the Traversable branch yields, with the keys dropped, are exactly the value walk of the array branch |
| Flattening.WalkValues | Arr.php:135-141 | without nested arrays, `array_walk_recursive` collects one value per entry |
| Flattening.Flatten | Arr.php:120-143 | an array gives a list of values and a Traversable gives a stream of pairs; the values come from the same depth-first walk, in the same order; every pair of the stream is a leaf entry of the input, at some depth, under the key it has in its innermost array |
| Flattening.ValuesOfWalk | Arr.php:127-141 | dropping the keys of the key-preserving walk gives the `array_walk_recursive` value list |
| Flattening.ValuesOfEntry | Arr.php:128-131 | the same projection for a single entry, leaf or nested array |
| Flattening.WalkPairsAppend | Arr.php:127-133 | flattening a concatenation is concatenating the flattenings |
| Flattening.WalkOfFlatInput | Arr.php:127-141 | without nested arrays, the value walk is the input's value list and the pair walk is the input's pairs |
| Flattening.EntriesPairsAreLeaves | Arr.php:126-133 | every pair the intended walk yields is a leaf entry of the input, at some depth, under its innermost key |
| Flattening.LeavesAreEntriesPairs | Arr.php:126-133 | every leaf entry of the input, at any depth, is yielded by the intended walk under its innermost key |
| Flattening.WalkPairsAreLeaves | Arr.php:126-133 | the intended walk yields a pair exactly when it is a leaf entry of the input at some depth, under the key it has in its innermost array |
| Flattening.WalkWithStack | Arr.php:126-133 | a walk that keeps one pending entry list per open nesting level yields exactly the recursive pair walk |
| Flattening.StreamAsWritten | Arr.php:126-133 | the Traversable branch as written yields the leading leaf entries, key and value, up to the first nested array, where it fails; it fails exactly when the input holds a nested array, and otherwise yields every entry |
| Flattening.StreamAsWrittenStopsAtFirstNested | Arr.php:126-133 | with the first nested array at position `n`, the branch as written yields the intended walk of the `n` entries before it, then fails |
| Flattening.StreamAsWrittenIsPrefix | Arr.php:126-133 | what the branch as written yields is a prefix of the intended walk, and all of it when nothing fails |
| Flattening.NestedArrayHaltsStream | Arr.php:129 | on `a => 1, b => [c => 2]` the branch as written stops with an error after `a => 1`, while the intended walk yields `a => 1, c => 2` |
| Flattening.NestedExample | Arr.php:127-141 | `{a: 1, b: {c: 2, d: {e: 3}}}` yields `a => 1, c => 2, e => 3`, and `[1, 2, 3]` without keys |
| Flattening.CollidingKeysExample | Arr.php:127-133 | keys from different levels can repeat in the pair stream |
| Duplicates.Trim | Arr.php:157 | `trim`'s result neither starts nor ends with a stripped character |
| Duplicates.TrimRemovesPadding | Arr.php:157 | `trim` removes exactly the padding: surrounding stripped characters go, and the middle part stays intact |
| Duplicates.TrimIdempotent | Arr.php:157 | trimming twice is trimming once |
| Duplicates.LowerSpec | Arr.php:158-160 | `strtolower` keeps the length, turns each letter `A`-`Z` into its lower-case partner 32 code points further, and keeps every other character; so it leaves no upper-case letter, and it changes a string exactly when the string has one |
| Duplicates.LowerIdempotent | Arr.php:158-160 | lower-casing twice is lower-casing once |
| Duplicates.Normalise | Arr.php:157-160 | a normalised cell neither starts nor ends with a character `trim` strips |
| Duplicates.Tally | Arr.php:156-172 | the lower-cased column name is never counted, and every counted value occurs among the cells with a positive count |
| Duplicates.TallyCounts | Arr.php:156-172 | the tally has an entry for every normalised value except the lower-cased column name, and each entry is the number of rows with that value |
| Duplicates.FindDuplicates | Arr.php:145-179 | an empty or `"0"` column name gives an empty result; otherwise the result is exactly the values other than the lower-cased column name that occur in more than one row, each with its row count |
| Duplicates.NormaliseIdempotent | Arr.php:157-160 | normalising a normalised cell changes nothing |
| Duplicates.DuplicatesAreNormalised | Arr.php:157-176 | every reported value is trimmed, and lower-case when the flag is `true` |
| Duplicates.HeaderValueNeverReported | Arr.php:162-165 | the lower-cased column name is never reported |
| Duplicates.ExampleDuplicates | Arr.php:145-179 | the cells `" Bob"`, `"bob "` and `"Anna"` give `{"bob": 2}` with the flag set |
| Duplicates.ExampleCaseKept | Arr.php:157-179 | the same cells give nothing with the flag unset |
| Ranges.Ascending | Arr.php:199-201 | the `<=` loop yields nothing exactly when `start` is past `stop`; otherwise it begins at `start`, ends at a value at most `stop`, and one more step would pass `stop` |
| Ranges.Descending | Arr.php:191-193 | the `>=` loop yields nothing exactly when `start` is below `stop`; otherwise it begins at `start`, ends at a value at least `stop`, and one more step would go below `stop` |
| Ranges.AscendingLength | Arr.php:199-201 | the `<=` loop makes `(stop - start) / step + 1` iterations |
| Ranges.DescendingLength | Arr.php:191-193 | the `>=` loop makes `(start - stop) / -step + 1` iterations |
| Ranges.Range | Arr.php:184-206 | equal bounds give `[start]`; a step of the wrong sign is an error, named after the direction; any other result starts at `start` |
| Ranges.AscendingIsProgression | Arr.php:194-201 | the ascending loop yields `i + j * step` at index `j`; the last value is at most `stop` and the next one is past it |
| Ranges.DescendingIsProgression | Arr.php:186-193 | the descending loop yields `i + j * step` at index `j`; the last value is at least `stop` and the next one is below it |
| Ranges.RangeIsProgression | Arr.php:184-206 | each value of a range lies between `start` and `stop` inclusive and consecutive values differ by `step`; unless the bounds are equal, the next step overshoots `stop` |
| Ranges.RangeLength | Arr.php:184-206 | a range has `abs(stop - start) / abs(step) + 1` values |
| Ranges.RangeClosedForm | Arr.php:184-206 | a range equals the closed-form progression `start + j * step` for `j` below that count |
| Ranges.AscendingExamples | Arr.php:194-201 | `range(1, 4, 1)` is `1, 2, 3, 4` and `range(0, 10, 4)` is `0, 4, 8` |
| Ranges.DescendingExamples | Arr.php:186-193 | `range(5, 1, -2)` and `range(5, 0, -2)` are both `5, 3, 1` |
| Ranges.EdgeExamples | Arr.php:184-206 | `range(3, 3, 0)` is `3`; `range(5, 1, 1)` and `range(1, 5, 0)` are errors |

## Left out

- `meminfo` (Arr.php:18-40) is left out. It reads the runtime's memory counters and formats floating-point numbers.
- `apply` (Arr.php:101-118) is left out. It exists only for the callable's side effects.
- The second declarations of `apply` and `map` (Arr.php:208-244) are left out. Redeclaring a method is a fatal error in PHP, so only the first `map` is modelled.
- `is_iterable` checks (Arr.php:45, 84, 122, 149) are left out. Every input is an `Iterable`, so the "not iterable" branches cannot be reached.
- Generator laziness is left out:
  - A Traversable is modelled by the finite list of pairs it yields.
  - Each generator is modelled by the full list of what it yields.
  - Suspension, single-pass consumption and infinite inputs are not modelled.
  - `range` throws its error only when first iterated; the model returns it as a `Result` error at once.
- Flattening.Flatten: the array branch's list is modelled as the result. In PHP, `flatten` contains `yield`, so that list becomes the generator's return value rather than yielded items.
- Flattening.Flatten: the Traversable branch follows the intended recursion (see Findings). Only arrays count as nested; a nested Traversable is a leaf.
- Chunking.Chunk: `(int)` casts and PHP type juggling of the arguments are not modelled. The chunk size is an integer.
- Chunking.Pull: PHP's key coercion in `$chunk[$key] = $value` (Arr.php:56) is not modelled. A numeric-string key such as `"5"` becomes the integer key `5`, `null` becomes `""`, and booleans and floats become integers; an object key raises an error. The model keeps every key as yielded and admits only integer and string keys, so a Traversable yielding both `"5"` and `5` makes two entries in the model where PHP makes one. `CollectCountsDistinctKeys` and `RepeatedKeyShrinksChunk` count keys without this coercion.
- `$chunk[] = $value` uses the rule from before PHP 8.3: one past the largest integer key, and never below 0. Only fresh chunks, which have no negative keys, reach it.
- Duplicates.FindDuplicates: the array fallback `array_unique($iterable)` (Arr.php:181) is not modelled. It depends on PHP's string-cast comparison of rows. The model covers the empty-column check and the Traversable branch.
- Duplicates.FindDuplicates: the result is a map, with no insertion order. Numeric-string values such as `"12"` become integer keys in PHP; the model keeps them as strings.
- Duplicates.FindDuplicates: every cell is taken to be a string. A missing column reads as `null`, which `trim` turns into `""` (PHP also emits a warning and a deprecation notice). Non-string cells are not modelled.
- Duplicates.Lower: only ASCII letters are lower-cased, as `strtolower` does since PHP 8.2. Locale-dependent lower-casing is not modelled.
- The flag `$case_sensitive` lower-cases when it is `true`, which is the opposite of what its name suggests. The model follows the code.
- In `array_filter` with `ARRAY_FILTER_USE_BOTH` (Arr.php:174-176), PHP passes the value first, so the parameter named `$key` holds the count. The model keeps entries whose count exceeds 1, which is what the code does.
- Ranges.Range: integers are unbounded. PHP integer overflow to float and non-integer arguments are not modelled.
- Ranges.Ascending: the model's loop always ends, because its integers are unbounded. In PHP, once `$i += $step` passes `PHP_INT_MAX` the counter becomes a float, and for a small step near the top of the range it can stop changing while still comparing `<= $stop`. For example, in `range(PHP_INT_MAX - 1, PHP_INT_MAX, 5)` the counter reaches 2^63, which compares equal to `(float)PHP_INT_MAX`, so the generator yields that value forever. Ranges.Descending has the same problem near `PHP_INT_MIN`.
- Mapping.Map: the callable is a pure Dafny function. Side effects, exceptions and by-reference parameters are not modelled.

## Findings

| source | as written | input that shows it | evidently intended | confidence | as-written member | corrected member |
|---|---|---|---|---|---|---|
| Arr.php:129 | the Traversable branch recurses through a bare `flatten($value)`; no function of that name exists in namespace `EM\Utils` or globally, so the first nested array raises an error and ends the stream | a Traversable yielding `a => 1, b => [c => 2]` | descend into the nested array and yield its leaves under their own keys: `a => 1, c => 2` | medium, not executed | Flattening.NestedArrayHaltsStream | Flattening.Flatten |

=== FILE: chunking.dfy ===
/** `Arr::chunk`: cutting an iterable into arrays of `chunk_size` pulled
    elements, either by the generator that walks a Traversable with a pending
    buffer and a counter, or by `array_chunk` on an array. */
module Chunking {
  import opened Results
  import opened PhpArrays
  import opened Ints

  /** Concatenation of a list of lists. */
  function Flat<T>(ss: seq<seq<T>>): seq<T>
  {
    if ss == [] then [] else ss[0] + Flat(ss[1..])
  }

  /** The values of a list of chunks, chunk after chunk. */
  function AllValues<V>(chunks: seq<Pairs<V>>): seq<V>
  {
    if chunks == [] then [] else ValuesOf(chunks[0]) + AllValues(chunks[1..])
  }

  /** Cuts `s` into consecutive runs: every run but the last has exactly `k`
      elements and the last has between 1 and `k`. */
  function Slices<T>(s: seq<T>, k: nat): (runs: seq<seq<T>>)
    requires k > 0
    ensures forall i :: 0 <= i < |runs| ==> 0 < |runs[i]| <= k
    ensures forall i :: 0 <= i < |runs| - 1 ==> |runs[i]| == k
    decreases |s|
  {
    if |s| == 0 then []
    else if |s| <= k then [s]
    else [s[..k]] + Slices(s[k..], k)
  }

  /** The runs, put back together, are the input. */
  lemma {:induction false} SlicesFlatten<T>(s: seq<T>, k: nat)
    requires k > 0
    ensures Flat(Slices(s, k)) == s
    decreases |s|
  {
    if 0 < |s| <= k {
      assert Flat([s]) == s + Flat([]);
    } else if |s| > k {
      var rest := Slices(s[k..], k);
      SlicesFlatten(s[k..], k);
      assert ([s[..k]] + rest)[1..] == rest;
    }
  }

  /** `n` pulls make `ceil(n / k)` runs. */
  lemma {:induction false} SlicesCount<T>(s: seq<T>, k: nat)
    requires k > 0
    ensures |Slices(s, k)| == (|s| + k - 1) / k
    decreases |s|
  {
    if |s| > k {
      SlicesCount(s[k..], k);
      assert |Slices(s, k)| == 1 + |Slices(s[k..], k)|;
      DivStep(|s| + k - 1, k);
    } else if |s| > 0 {
      DivOne(|s| + k - 1, k);
    } else {
      DivZero(k - 1, k);
    }
  }

  /** `s` is a whole number of runs of `k`: the input the generator has
      consumed whenever its counter is back at 0. */
  ghost predicate Whole<T>(s: seq<T>, k: nat)
    requires k > 0
    decreases |s|
  {
    |s| == 0 || (|s| >= k && Whole(s[k..], k))
  }

  /** One pull of the generator: `$chunk[$key] = $value` when keys are
      preserved, `$chunk[] = $value` otherwise. */
  function Pull<V>(chunk: Pairs<V>, e: (Key, V), preserveKeys: bool): (r: Pairs<V>)
    ensures preserveKeys ==> forall i :: 0 <= i < |r| && r[i].0 == e.0 ==> r[i].1 == e.1
    ensures preserveKeys ==> |r| == if e.0 in KeySet(chunk) then |chunk| else |chunk| + 1
    ensures preserveKeys ==> forall i :: 0 <= i < |chunk| && chunk[i].0 != e.0 ==> r[i] == chunk[i]
    ensures !preserveKeys ==> |r| == |chunk| + 1 && r[..|chunk|] == chunk && r[|chunk|].1 == e.1
  {
    if preserveKeys then Assign(chunk, e.0, e.1) else Push(chunk, e.1)
  }

  /** The pending chunk after pulling the pairs of `s`, in order, into an
      empty array. */
  function Collect<V>(s: Pairs<V>, preserveKeys: bool): (r: Pairs<V>)
    ensures |r| <= |s|
    ensures s != [] ==> r != []
    ensures !preserveKeys ==> |r| == |s|
    decreases |s|
  {
    if s == [] then []
    else Pull(Collect(s[..|s| - 1], preserveKeys), s[|s| - 1], preserveKeys)
  }

  /** The pending chunk is a PHP array (distinct keys); with preserved keys
      its keys are exactly the keys pulled. */
  lemma {:induction false} CollectIsArray<V>(s: Pairs<V>, preserveKeys: bool)
    ensures |Collect(s, preserveKeys)| <= |s|
    ensures |s| > 0 ==> |Collect(s, preserveKeys)| > 0
    ensures UniqueKeys(Collect(s, preserveKeys))
    ensures preserveKeys ==> KeySet(Collect(s, preserveKeys)) == KeySet(s)
    decreases |s|
  {
    if s != [] {
      var p, e := s[..|s| - 1], s[|s| - 1];
      CollectIsArray(p, preserveKeys);
      var before := Collect(p, preserveKeys);
      assert KeySet(s) == KeySet(p) + {e.0} by {
        assert s == p + [e];
        forall x | x in KeySet(s) ensures x in KeySet(p) + {e.0} {
          var i :| 0 <= i < |s| && s[i].0 == x;
          if i < |p| { assert p[i].0 == x; }
        }
      }
      if preserveKeys {
        AssignSemantics(before, e.0, e.1);
      } else {
        PushKeepsKeysUnique(before, e.1);
      }
    }
  }

  /** What the generator yields for a Traversable: every run of `chunkSize`
      pulled pairs, and the final partial run if any, each collected into a
      fresh array. */
  function GeneratorChunks<V>(items: Pairs<V>, chunkSize: nat, preserveKeys: bool): (r: seq<Pairs<V>>)
    requires chunkSize > 0
    ensures |r| == |Slices(items, chunkSize)|
    ensures forall i :: 0 <= i < |r| ==> 0 < |r[i]| <= chunkSize
  {
    var runs := Slices(items, chunkSize);
    seq(|runs|, i requires 0 <= i < |runs| => Collect(runs[i], preserveKeys))
  }

  /** PHP's `array_chunk` on an array: runs of `size` entries, kept as they
      are or re-indexed from 0. */
  function ArrayChunk<V>(a: Pairs<V>, size: nat, preserveKeys: bool): (r: seq<Pairs<V>>)
    requires size > 0
    ensures |r| == |Slices(a, size)|
    ensures forall i :: 0 <= i < |r| ==> 0 < |r[i]| <= size
  {
    var runs := Slices(a, size);
    seq(|runs|, i requires 0 <= i < |runs| =>
      if preserveKeys then runs[i] else Reindex(ValuesOf(runs[i])))
  }

  /** A Traversable of `n` pairs and an array of `n` entries both make
      `ceil(n / chunkSize)` chunks. */
  lemma ChunkCount<V>(items: Pairs<V>, chunkSize: nat, preserveKeys: bool)
    requires chunkSize > 0
    ensures |GeneratorChunks(items, chunkSize, preserveKeys)| == (|items| + chunkSize - 1) / chunkSize
    ensures |ArrayChunk(items, chunkSize, preserveKeys)| == (|items| + chunkSize - 1) / chunkSize
  {
    SlicesCount(items, chunkSize);
  }

  /** Appending a partial run to a whole number of runs adds one run. */
  lemma {:induction false} WholeAppend<T>(p: seq<T>, t: seq<T>, k: nat)
    requires k > 0 && Whole(p, k) && |t| == k
    ensures Whole(p + t, k)
    decreases |p|
  {
    if |p| == 0 {
      assert p + t == t;
      assert (p + t)[k..] == [];
    } else {
      WholeAppend(p[k..], t, k);
      assert (p + t)[k..] == p[k..] + t;
    }
  }

  /** The chunks in the order the generator emits them: the first run of
      `k` pulled pairs, then the chunks of the rest. */
  function Emitted<V>(s: Pairs<V>, k: nat, preserveKeys: bool): seq<Pairs<V>>
    requires k > 0
    decreases |s|
  {
    if |s| == 0 then []
    else if |s| <= k then [Collect(s, preserveKeys)]
    else [Collect(s[..k], preserveKeys)] + Emitted(s[k..], k, preserveKeys)
  }

  /** Past the first run, the generator's chunks are the first run's chunk
      followed by the chunks of the rest. */
  lemma GeneratorChunksUnfold<V>(s: Pairs<V>, k: nat, preserveKeys: bool)
    requires 0 < k < |s|
    ensures GeneratorChunks(s, k, preserveKeys)
         == [Collect(s[..k], preserveKeys)] + GeneratorChunks(s[k..], k, preserveKeys)
  {
    var runs, rest := Slices(s, k), Slices(s[k..], k);
    assert runs == [s[..k]] + rest;
    var g, later := GeneratorChunks(s, k, preserveKeys), GeneratorChunks(s[k..], k, preserveKeys);
    var h := [Collect(s[..k], preserveKeys)] + later;
    assert |g| == |h|;
    forall i | 0 <= i < |g| ensures g[i] == h[i] {
      assert g[i] == Collect(runs[i], preserveKeys);
      if i > 0 {
        assert runs[i] == rest[i - 1];
        assert h[i] == later[i - 1] == Collect(rest[i - 1], preserveKeys);
      }
    }
  }

  lemma {:induction false} EmittedAreGeneratorChunks<V>(s: Pairs<V>, k: nat, preserveKeys: bool)
    requires k > 0
    ensures Emitted(s, k, preserveKeys) == GeneratorChunks(s, k, preserveKeys)
    decreases |s|
  {
    if |s| > k {
      EmittedAreGeneratorChunks(s[k..], k, preserveKeys);
      GeneratorChunksUnfold(s, k, preserveKeys);
    } else if |s| > 0 {
      assert Slices(s, k) == [s];
    }
  }

  /** Appending a partial run to a whole number of runs adds one chunk. */
  lemma {:induction false} EmittedAppend<V>(p: Pairs<V>, t: Pairs<V>, k: nat, preserveKeys: bool)
    requires k > 0 && Whole(p, k) && 0 < |t| <= k
    ensures Emitted(p + t, k, preserveKeys) == Emitted(p, k, preserveKeys) + [Collect(t, preserveKeys)]
    decreases |p|
  {
    if |p| == 0 {
      assert p + t == t;
    } else {
      assert (p + t)[..k] == p[..k];
      assert (p + t)[k..] == p[k..] + t;
      EmittedAppend(p[k..], t, k, preserveKeys);
      if |p| == k {
        assert p[k..] == [];
        assert p[k..] + t == t;
      }
    }
  }

  /** Pulling one more pair extends the pending run by that pair. */
  lemma PullExtends<V>(s: Pairs<V>, e: (Key, V), preserveKeys: bool)
    ensures Collect(s + [e], preserveKeys) == Pull(Collect(s, preserveKeys), e, preserveKeys)
  {
    assert (s + [e])[..|s|] == s;
  }

  lemma PullStep<V>(items: Pairs<V>, lo: nat, hi: nat, preserveKeys: bool)
    requires lo <= hi < |items|
    ensures Collect(items[lo..hi + 1], preserveKeys)
         == Pull(Collect(items[lo..hi], preserveKeys), items[hi], preserveKeys)
  {
    assert items[lo..hi + 1] == items[lo..hi] + [items[hi]];
    PullExtends(items[lo..hi], items[hi], preserveKeys);
  }

  /** Emitting the pending run keeps the emitted chunks equal to the
      chunks of the consumed prefix. */
  lemma EmitRun<V>(items: Pairs<V>, lo: nat, hi: nat, k: nat, preserveKeys: bool)
    requires k > 0 && lo <= hi <= |items| && hi - lo == k && Whole(items[..lo], k)
    ensures Whole(items[..hi], k)
    ensures Emitted(items[..hi], k, preserveKeys)
         == Emitted(items[..lo], k, preserveKeys) + [Collect(items[lo..hi], preserveKeys)]
  {
    var p, t := items[..lo], items[lo..hi];
    assert p + t == items[..hi];
    WholeAppend(p, t, k);
    EmittedAppend(p, t, k, preserveKeys);
  }

  /** The state of the generator after `i` pulls: the chunks emitted so
      far are those of the full runs before `start`, and the pending chunk
      holds the pulls since. */
  ghost predicate Pending<V>(items: Pairs<V>, k: nat, preserveKeys: bool, start: nat, i: nat,
                             chunks: seq<Pairs<V>>, chunk: Pairs<V>)
  {
    start <= i <= |items| && i - start < k && Whole(items[..start], k)
    && chunks == Emitted(items[..start], k, preserveKeys)
    && chunk == Collect(items[start..i], preserveKeys)
  }

  /** One pull: the pending chunk grows, and once it holds `k` pulls it is
      emitted and a fresh one starts. */
  lemma PendingStep<V>(items: Pairs<V>, k: nat, preserveKeys: bool, start: nat, i: nat,
                       chunks: seq<Pairs<V>>, chunk: Pairs<V>)
    requires i < |items| && Pending(items, k, preserveKeys, start, i, chunks, chunk)
    ensures var c := Pull(chunk, items[i], preserveKeys);
      if i + 1 - start == k then Pending(items, k, preserveKeys, i + 1, i + 1, chunks + [c], [])
      else Pending(items, k, preserveKeys, start, i + 1, chunks, c)
  {
    PullStep(items, start, i, preserveKeys);
    if i + 1 - start == k {
      EmitRun(items, start, i + 1, k, preserveKeys);
      assert items[i + 1..i + 1] == [];
    }
  }

  /** At the end of the input, emitting a non-empty pending chunk gives the
      chunks of all runs. */
  lemma PendingDone<V>(items: Pairs<V>, k: nat, preserveKeys: bool, start: nat,
                       chunks: seq<Pairs<V>>, chunk: Pairs<V>)
    requires Pending(items, k, preserveKeys, start, |items|, chunks, chunk)
    ensures (if start < |items| then chunks + [chunk] else chunks)
         == GeneratorChunks(items, k, preserveKeys)
  {
    if start < |items| {
      assert items[start..|items|] == items[start..];
      EmitRunPartial(items, start, k, preserveKeys);
    } else {
      assert items[..start] == items;
    }
    EmittedAreGeneratorChunks(items, k, preserveKeys);
  }

  /** The generator of Arr.php:51-73: one loop over the pairs, a pending
      chunk and a counter of pulls; a chunk is emitted when the counter reaches
      `chunkSize`, and a non-empty pending chunk once more at the end. It
      yields exactly `GeneratorChunks`. */
  method Generate<V>(items: Pairs<V>, chunkSize: nat, preserveKeys: bool) returns (chunks: seq<Pairs<V>>)
    requires chunkSize > 0
    ensures chunks == GeneratorChunks(items, chunkSize, preserveKeys)
  {
    var count := 0;
    var chunk: Pairs<V> := [];
    chunks := [];
    var i := 0;
    ghost var start := 0;
    while i < |items|
      invariant Pending(items, chunkSize, preserveKeys, start, i, chunks, chunk)
      invariant count == i - start
    {
      PendingStep(items, chunkSize, preserveKeys, start, i, chunks, chunk);
      chunk := Pull(chunk, items[i], preserveKeys);
      count := count + 1;
      i := i + 1;
      if count == chunkSize {
        chunks := chunks + [chunk];
        count := 0;
        chunk := [];
        start := i;
      }
    }
    PendingDone(items, chunkSize, preserveKeys, start, chunks, chunk);
    if count != 0 {
      chunks := chunks + [chunk];
    }
  }

  /** The final partial run completes the chunks of the whole input. */
  lemma EmitRunPartial<V>(items: Pairs<V>, lo: nat, k: nat, preserveKeys: bool)
    requires k > 0 && lo < |items| && |items| - lo <= k && Whole(items[..lo], k)
    ensures Emitted(items, k, preserveKeys)
         == Emitted(items[..lo], k, preserveKeys) + [Collect(items[lo..], preserveKeys)]
  {
    var p, t := items[..lo], items[lo..];
    assert p + t == items;
    EmittedAppend(p, t, k, preserveKeys);
  }

  /** Arr.php:42-80. `false` for a non-positive chunk size; otherwise the
      generator on a Traversable and `array_chunk` on an array, which yield
      the same chunks. */
  method Chunk<V>(input: Iterable<V>, chunkSize: int, preserveKeys: bool) returns (r: Option<seq<Pairs<V>>>)
    requires input.Valid()
    ensures chunkSize <= 0 <==> r.None?
    ensures r.Some? ==> chunkSize > 0 && r.value == GeneratorChunks(input.Items(), chunkSize, preserveKeys)
  {
    if chunkSize <= 0 {
      return None;
    }
    match input
    case Traversable(items) =>
      var chunks := Generate(items, chunkSize, preserveKeys);
      r := Some(chunks);
    case Array(entries) =>
      ArrayChunkAgrees(entries, chunkSize, preserveKeys);
      r := Some(ArrayChunk(entries, chunkSize, preserveKeys));
  }

  // ----- Pulling without preserved keys re-indexes ------------------------

  /** Without preserved keys the pending chunk is the pulled values under
      the keys 0, 1, 2, ... */
  lemma {:induction false} CollectReindexes<V>(s: Pairs<V>)
    ensures Collect(s, false) == Reindex(ValuesOf(s))
    decreases |s|
  {
    if s != [] {
      var p, e := s[..|s| - 1], s[|s| - 1];
      var vs := ValuesOf(p);
      CollectReindexes(p);
      NextIndexOfReindex(vs);
      assert ValuesOf(s) == vs + [e.1];
      ReindexSnoc(vs, e.1);
    }
  }

  lemma ReindexSnoc<V>(vs: seq<V>, v: V)
    ensures Reindex(vs + [v]) == Reindex(vs) + [(IntKey(|vs|), v)]
  {
  }

  /** With preserved keys, pulling an array's entries rebuilds the array. */
  lemma {:induction false} CollectOfArrayIsIdentity<V>(s: Pairs<V>)
    requires UniqueKeys(s)
    ensures Collect(s, true) == s
    decreases |s|
  {
    if s != [] {
      var p, e := s[..|s| - 1], s[|s| - 1];
      CollectOfArrayIsIdentity(p);
      assert e.0 !in KeySet(p);
      assert p + [e] == s;
    }
  }

  // ----- Counting entries against pulls ------------------------------------

  lemma {:induction false} UniqueKeysCount<V>(a: Pairs<V>)
    requires UniqueKeys(a)
    ensures |KeySet(a)| == |a|
    decreases |a|
  {
    if a != [] {
      var p, e := a[..|a| - 1], a[|a| - 1];
      UniqueKeysCount(p);
      assert KeySet(a) == KeySet(p) + {e.0} by {
        forall x | x in KeySet(a) ensures x in KeySet(p) + {e.0} {
          var i :| 0 <= i < |a| && a[i].0 == x;
          if i < |p| { assert p[i].0 == x; }
        }
        forall x | x in KeySet(p) ensures x in KeySet(a) {
          var i :| 0 <= i < |p| && p[i].0 == x;
          assert a[i].0 == x;
        }
      }
      assert e.0 !in KeySet(p);
    }
  }

  /** A list of pairs has at most as many distinct keys as pairs, and fewer
      as soon as some key repeats. */
  lemma {:induction false} KeySetCount<V>(s: Pairs<V>)
    ensures |KeySet(s)| <= |s|
    ensures (exists i, j :: 0 <= i < j < |s| && s[i].0 == s[j].0) ==> |KeySet(s)| < |s|
    decreases |s|
  {
    if s != [] {
      var p, e := s[..|s| - 1], s[|s| - 1];
      KeySetCount(p);
      assert KeySet(s) == KeySet(p) + {e.0} by {
        forall x | x in KeySet(s) ensures x in KeySet(p) + {e.0} {
          var i :| 0 <= i < |s| && s[i].0 == x;
          if i < |p| { assert p[i].0 == x; }
        }
        forall x | x in KeySet(p) ensures x in KeySet(s) {
          var i :| 0 <= i < |p| && p[i].0 == x;
          assert s[i].0 == x;
        }
      }
      if exists i, j :: 0 <= i < j < |s| && s[i].0 == s[j].0 {
        var i, j :| 0 <= i < j < |s| && s[i].0 == s[j].0;
        if j < |p| {
          assert p[i].0 == p[j].0;
        } else {
          assert p[i].0 == e.0;
          assert KeySet(s) == KeySet(p);
        }
      }
    }
  }

  /** With preserved keys a chunk holds one entry per distinct key pulled,
      since a repeated key overwrites its earlier entry in place. */
  lemma CollectCountsDistinctKeys<V>(s: Pairs<V>)
    ensures |Collect(s, true)| == |KeySet(s)|
  {
    CollectIsArray(s, true);
    UniqueKeysCount(Collect(s, true));
  }

  /** With preserved keys a chunk holds only pairs that were pulled. */
  lemma {:induction false} CollectPairsArePulled<V>(s: Pairs<V>)
    ensures forall q :: q in Collect(s, true) ==> q in s
    decreases |s|
  {
    if s != [] {
      var p, e := s[..|s| - 1], s[|s| - 1];
      CollectPairsArePulled(p);
      AssignSemantics(Collect(p, true), e.0, e.1);
      assert s == p + [e];
    }
  }

  /** With preserved keys the last pull of each key survives in the chunk:
      a later pull of the same key overwrites the value in place, and a
      pull of another key leaves the entry where it is. */
  lemma {:induction false} LastPullWins<V>(s: Pairs<V>)
    ensures forall i :: 0 <= i < |s| && (forall j :: i < j < |s| ==> s[j].0 != s[i].0) ==>
      s[i] in Collect(s, true)
    decreases |s|
  {
    if s != [] {
      var p, e := s[..|s| - 1], s[|s| - 1];
      var before := Collect(p, true);
      LastPullWins(p);
      AssignSemantics(before, e.0, e.1);
      forall i | 0 <= i < |s| && (forall j :: i < j < |s| ==> s[j].0 != s[i].0)
        ensures s[i] in Collect(s, true)
      {
        if i < |p| {
          assert s[|s| - 1].0 != s[i].0;
          assert forall j :: i < j < |p| ==> p[j].0 != p[i].0 by {
            forall j | i < j < |p| ensures p[j].0 != p[i].0 {
              assert s[j] == p[j];
            }
          }
          assert p[i] in before;
          var m :| 0 <= m < |before| && before[m] == p[i];
          assert Collect(s, true)[m] == before[m];
        }
      }
    }
  }

  /** The distinct keys of `s` in the order of their first occurrence. */
  function FirstKeys<V>(s: Pairs<V>): seq<Key>
    decreases |s|
  {
    if s == [] then []
    else
      var p := s[..|s| - 1];
      if s[|s| - 1].0 in KeySet(p) then FirstKeys(p) else FirstKeys(p) + [s[|s| - 1].0]
  }

  /** With preserved keys a chunk lists its keys in the order each was
      first pulled; with `LastPullWins` and distinct keys this fixes the
      chunk completely. */
  lemma {:induction false} CollectKeyOrder<V>(s: Pairs<V>)
    ensures KeysOf(Collect(s, true)) == FirstKeys(s)
    decreases |s|
  {
    if s != [] {
      var p, e := s[..|s| - 1], s[|s| - 1];
      var before := Collect(p, true);
      CollectKeyOrder(p);
      CollectIsArray(p, true);
      AssignSemantics(before, e.0, e.1);
      if e.0 !in KeySet(p) {
        assert KeysOf(before + [e]) == KeysOf(before) + [e.0];
      }
    }
  }

  /** The counter counts pulls, not entries: a run of pulls that repeats a
      key yields a chunk with fewer entries than pulls. */
  lemma RepeatedKeyShrinksChunk<V>(s: Pairs<V>)
    requires exists i, j :: 0 <= i < j < |s| && s[i].0 == s[j].0
    ensures |Collect(s, true)| < |s|
  {
    CollectCountsDistinctKeys(s);
    KeySetCount(s);
  }

  // ----- Properties of the chunks ------------------------------------------

  /** Where run `i` starts: `i` whole runs of `k` in. */
  function RunStart(k: nat, i: nat): nat
  {
    if i == 0 then 0 else RunStart(k, i - 1) + k
  }

  lemma {:induction false} RunStartIsProduct(k: nat, i: nat)
    ensures RunStart(k, i) == i * k
  {
    if i > 0 {
      RunStartIsProduct(k, i - 1);
    }
  }

  lemma FirstRun<T>(s: seq<T>, k: nat)
    requires k > 0 && |s| > 0
    ensures Slices(s, k)[0] == s[0..Min(k, |s|)]
  {
    if |s| <= k {
      assert s[0..|s|] == s;
    }
  }

  lemma LaterRun<T>(s: seq<T>, k: nat, i: nat, lo: nat)
    requires k > 0 && 0 < i < |Slices(s, k)|
    requires lo < |s[k..]| && Slices(s[k..], k)[i - 1] == s[k..][lo..Min(lo + k, |s[k..]|)]
    ensures Slices(s, k)[i] == s[k + lo..Min(k + lo + k, |s|)]
  {
    var t := s[k..];
    assert Slices(s, k)[i] == Slices(t, k)[i - 1];
    SliceOfSuffix(s, k, lo, Min(lo + k, |t|));
  }

  lemma {:induction false} SliceAtRunStart<T>(s: seq<T>, k: nat, i: nat)
    requires k > 0 && i < |Slices(s, k)|
    ensures RunStart(k, i) < |s|
    ensures Slices(s, k)[i] == s[RunStart(k, i)..Min(RunStart(k, i) + k, |s|)]
    decreases i
  {
    if i == 0 {
      FirstRun(s, k);
    } else {
      SliceAtRunStart(s[k..], k, i - 1);
      LaterRun(s, k, i, RunStart(k, i - 1));
    }
  }

  /** Run `i` is the contiguous slice of the input starting at `i * k`. */
  lemma SliceAt<T>(s: seq<T>, k: nat, i: nat)
    requires k > 0 && i < |Slices(s, k)|
    ensures i * k < |s|
    ensures Slices(s, k)[i] == s[i * k..Min(i * k + k, |s|)]
  {
    SliceAtRunStart(s, k, i);
    RunStartIsProduct(k, i);
    RunStartIsProduct(k, i + 1);
  }

  /** `SliceAt` for every run at once. */
  lemma SlicesAt<T>(s: seq<T>, k: nat)
    requires k > 0
    ensures forall i :: 0 <= i < |Slices(s, k)| ==>
      i * k < |s| && Slices(s, k)[i] == s[i * k..Min(i * k + k, |s|)]
  {
    forall i | 0 <= i < |Slices(s, k)|
      ensures i * k < |s| && Slices(s, k)[i] == s[i * k..Min(i * k + k, |s|)]
    {
      SliceAt(s, k, i);
    }
  }

  lemma SliceOfSuffix<T>(s: seq<T>, k: nat, lo: nat, hi: nat)
    requires k + hi <= |s| && lo <= hi
    ensures s[k..][lo..hi] == s[k + lo..k + hi]
  {
  }

  lemma {:induction false} RunsOfArrayAreArrays<V>(s: Pairs<V>, k: nat)
    requires k > 0 && UniqueKeys(s)
    ensures forall i :: 0 <= i < |Slices(s, k)| ==> UniqueKeys(Slices(s, k)[i])
    decreases |s|
  {
    if |s| > k {
      RunsOfArrayAreArrays(s[k..], k);
    }
  }

  /** On an array, `array_chunk` and the generator yield the same chunks. */
  lemma ArrayChunkAgrees<V>(a: Pairs<V>, k: nat, preserveKeys: bool)
    requires k > 0 && UniqueKeys(a)
    ensures ArrayChunk(a, k, preserveKeys) == GeneratorChunks(a, k, preserveKeys)
  {
    var runs := Slices(a, k);
    RunsOfArrayAreArrays(a, k);
    forall i | 0 <= i < |runs|
      ensures ArrayChunk(a, k, preserveKeys)[i] == GeneratorChunks(a, k, preserveKeys)[i]
    {
      if preserveKeys {
        CollectOfArrayIsIdentity(runs[i]);
      } else {
        CollectReindexes(runs[i]);
      }
    }
  }

  /** No chunk is empty and none holds more than `k` entries. Without
      preserved keys every chunk but the last holds exactly `k` entries and
      each chunk is keyed 0, 1, 2, ... */
  lemma ChunkShape<V>(items: Pairs<V>, k: nat, preserveKeys: bool)
    requires k > 0
    ensures var chunks := GeneratorChunks(items, k, preserveKeys);
      && (forall i :: 0 <= i < |chunks| ==> 0 < |chunks[i]| <= k)
      && (!preserveKeys ==> forall i :: 0 <= i < |chunks| - 1 ==> |chunks[i]| == k)
      && (!preserveKeys ==> forall i, j :: 0 <= i < |chunks| && 0 <= j < |chunks[i]| ==> chunks[i][j].0 == IntKey(j))
  {
    var runs := Slices(items, k);
    forall i | 0 <= i < |runs| ensures 0 < |Collect(runs[i], preserveKeys)| <= |runs[i]| {
      CollectIsArray(runs[i], preserveKeys);
    }
    if !preserveKeys {
      forall i | 0 <= i < |runs| ensures Collect(runs[i], false) == Reindex(ValuesOf(runs[i])) {
        CollectReindexes(runs[i]);
      }
    }
  }

  /** With preserved keys, a chunk emitted after `k` pulls that repeated a
      key holds fewer than `k` entries. */
  lemma ShortChunkAfterRepeatedKey<V>(items: Pairs<V>, k: nat, i: nat)
    requires k > 0 && i < |Slices(items, k)| && |Slices(items, k)[i]| == k
    requires var run := Slices(items, k)[i];
      exists a, b :: 0 <= a < b < |run| && run[a].0 == run[b].0
    ensures |GeneratorChunks(items, k, true)[i]| < k
  {
    RepeatedKeyShrinksChunk(Slices(items, k)[i]);
  }

  lemma {:induction false} AllValuesOfRuns<V>(chunks: seq<Pairs<V>>, runs: seq<Pairs<V>>)
    requires |chunks| == |runs|
    requires forall i :: 0 <= i < |runs| ==> ValuesOf(chunks[i]) == ValuesOf(runs[i])
    ensures AllValues(chunks) == ValuesOf(Flat(runs))
    decreases |runs|
  {
    if runs != [] {
      AllValuesOfRuns(chunks[1..], runs[1..]);
      assert Flat(runs) == runs[0] + Flat(runs[1..]);
      assert ValuesOf(runs[0] + Flat(runs[1..])) == ValuesOf(runs[0]) + ValuesOf(Flat(runs[1..]));
    }
  }

  /** Without preserved keys, the chunks' values, chunk after chunk, are the
      input's values in order. */
  lemma ChunkValuesRoundTrip<V>(items: Pairs<V>, k: nat)
    requires k > 0
    ensures AllValues(GeneratorChunks(items, k, false)) == ValuesOf(items)
  {
    var runs := Slices(items, k);
    var chunks := GeneratorChunks(items, k, false);
    forall i | 0 <= i < |runs| ensures ValuesOf(chunks[i]) == ValuesOf(runs[i]) {
      CollectReindexes(runs[i]);
    }
    AllValuesOfRuns(chunks, runs);
    SlicesFlatten(items, k);
  }

  /** With preserved keys chunk `i` lists the keys of run `i` in first-pull
      order, holds only pairs of that run, and holds each pair of the run
      that is the run's last pull of its key. */
  lemma PreservedChunkPairsAt<V>(items: Pairs<V>, k: nat, i: nat)
    requires k > 0 && i < |GeneratorChunks(items, k, true)|
    ensures var chunk, run := GeneratorChunks(items, k, true)[i], Slices(items, k)[i];
      && KeysOf(chunk) == FirstKeys(run)
      && (forall q :: q in chunk ==> q in run)
      && (forall m :: 0 <= m < |run| && (forall j :: m < j < |run| ==> run[j].0 != run[m].0) ==>
            run[m] in chunk)
  {
    var run := Slices(items, k)[i];
    assert GeneratorChunks(items, k, true)[i] == Collect(run, true);
    CollectKeyOrder(run);
    CollectPairsArePulled(run);
    LastPullWins(run);
  }

  /** The same for every chunk: on any input, repeated keys included, each
      chunk holds pulled pairs of its own run, in first-pull key order, and
      keeps the run's last pull of every key; `SliceAt` places run `i` at
      `i * chunk_size` in the input. */
  lemma PreservedChunkPairs<V>(items: Pairs<V>, k: nat)
    requires k > 0
    ensures var chunks, runs := GeneratorChunks(items, k, true), Slices(items, k);
      forall i :: 0 <= i < |chunks| ==>
        && KeysOf(chunks[i]) == FirstKeys(runs[i])
        && (forall q :: q in chunks[i] ==> q in runs[i])
        && (forall m :: 0 <= m < |runs[i]| && (forall j :: m < j < |runs[i]| ==> runs[i][j].0 != runs[i][m].0) ==>
              runs[i][m] in chunks[i])
  {
    forall i | 0 <= i < |GeneratorChunks(items, k, true)| {
      PreservedChunkPairsAt(items, k, i);
    }
  }

  /** With preserved keys on input whose keys do not repeat, chunk `i` is
      the input's contiguous slice starting at `i * k`, so the chunks put
      back together give the input exactly. */
  lemma PreservedChunksAreSlices<V>(items: Pairs<V>, k: nat)
    requires k > 0 && UniqueKeys(items)
    ensures var chunks := GeneratorChunks(items, k, true);
      && Flat(chunks) == items
      && forall i :: 0 <= i < |chunks| ==>
           i * k < |items| && chunks[i] == items[i * k..Min(i * k + k, |items|)]
  {
    var chunks, runs := GeneratorChunks(items, k, true), Slices(items, k);
    assert chunks == runs by {
      RunsOfArrayAreArrays(items, k);
      forall i | 0 <= i < |runs| ensures chunks[i] == runs[i] {
        CollectOfArrayIsIdentity(runs[i]);
      }
    }
    SlicesFlatten(items, k);
    SlicesAt(items, k);
  }
}

=== FILE: duplicates.dfy ===
/** `Arr::duplicates`: counting, over the rows of a Traversable, how often
    each normalised value of one column occurs, and keeping the values that
    occur more than once. */
module Duplicates {

  /** A row: column name to cell text. */
  type Row = map<string, string>

  // ----- PHP string helpers, ASCII only --------------------------------------

  /** The characters PHP's `trim` strips by default: space, tab, line feed,
      carriage return, NUL and vertical tab. */
  predicate IsTrimmed(c: char)
  {
    c == ' ' || c == '\t' || c == '\n' || c == '\r' || c == '\0' || c == 11 as char
  }

  function TrimLeft(s: string): (r: string)
    ensures r == [] || !IsTrimmed(r[0])
    decreases |s|
  {
    if s != [] && IsTrimmed(s[0]) then TrimLeft(s[1..]) else s
  }

  function TrimRight(s: string): (r: string)
    ensures |r| <= |s| && r == s[..|r|]
    ensures r == [] || !IsTrimmed(r[|r| - 1])
    decreases |s|
  {
    if s != [] && IsTrimmed(s[|s| - 1]) then TrimRight(s[..|s| - 1]) else s
  }

  /** PHP's `trim`: the longest middle part of `s` that neither starts nor
      ends with a stripped character. */
  function Trim(s: string): (r: string)
    ensures r == [] || (!IsTrimmed(r[0]) && !IsTrimmed(r[|r| - 1]))
  {
    TrimRight(TrimLeft(s))
  }

  function LowerChar(c: char): char
  {
    if 'A' <= c <= 'Z' then (c as int + 32) as char else c
  }

  /** PHP 8's `strtolower`: ASCII letters A-Z to a-z, every other character
      unchanged. */
  function Lower(s: string): (r: string)
    ensures |r| == |s|
  {
    if s == [] then [] else [LowerChar(s[0])] + Lower(s[1..])
  }

  lemma {:induction false} LowerPointwise(s: string)
    ensures forall i :: 0 <= i < |s| ==> Lower(s)[i] == LowerChar(s[i])
  {
    if s != [] {
      LowerPointwise(s[1..]);
    }
  }

  predicate HasUpper(s: string)
  {
    exists i :: 0 <= i < |s| && 'A' <= s[i] <= 'Z'
  }

  /** `strtolower` keeps the length, turns each ASCII upper-case letter
      into its lower-case partner (32 code points further) and keeps every
      other character; so it leaves no upper-case letter, and it leaves a
      string unchanged exactly when the string has none. */
  lemma LowerSpec(s: string)
    ensures |Lower(s)| == |s|
    ensures forall i :: 0 <= i < |s| && 'A' <= s[i] <= 'Z' ==> Lower(s)[i] as int == s[i] as int + 32
    ensures forall i :: 0 <= i < |s| && !('A' <= s[i] <= 'Z') ==> Lower(s)[i] == s[i]
    ensures !HasUpper(Lower(s))
    ensures Lower(s) == s <==> !HasUpper(s)
  {
    var r := Lower(s);
    LowerPointwise(s);
    if HasUpper(s) {
      var i :| 0 <= i < |s| && 'A' <= s[i] <= 'Z';
      assert r[i] != s[i];
    }
  }

  /** PHP's `empty` on a string: true for "" and for "0". */
  predicate IsEmptyString(s: string)
  {
    s == "" || s == "0"
  }

  // ----- The tally -------------------------------------------------------------

  /** `$row[$column]`: a row without the column reads as null, which `trim`
      turns into the empty string. */
  function Cell(row: Row, column: string): string
  {
    if column in row then row[column] else ""
  }

  /** Arr.php:157-160: the cell trimmed, then lower-cased when the flag is
      exactly `true`. */
  function Normalise(cell: string, lowerCase: bool): (r: string)
    ensures r == [] || (!IsTrimmed(r[0]) && !IsTrimmed(r[|r| - 1]))
  {
    var t := Trim(cell);
    LowerPointwise(t);
    if lowerCase then Lower(t) else t
  }

  /** The normalised cells of the column, row by row. */
  function Normalised(rows: seq<Row>, column: string, lowerCase: bool): (cells: seq<string>)
    ensures |cells| == |rows|
  {
    seq(|rows|, i requires 0 <= i < |rows| => Normalise(Cell(rows[i], column), lowerCase))
  }

  /** The loop of Arr.php:156-172 over the normalised cells, one at a time:
      a cell equal to `header` is skipped, any other is counted. */
  function Tally(cells: seq<string>, header: string): (r: map<string, nat>)
    ensures header !in r
    ensures forall v :: v in r ==> v in cells && r[v] > 0
    decreases |cells|
  {
    if cells == [] then map[]
    else
      var before := Tally(cells[..|cells| - 1], header);
      var data := cells[|cells| - 1];
      if data == header then before
      else if data !in before then before[data := 1]
      else before[data := before[data] + 1]
  }

  /** The tally holds one entry per cell value other than `header`, and that
      entry is the number of cells holding it. */
  lemma {:induction false} TallyCounts(cells: seq<string>, header: string)
    ensures forall v :: v in Tally(cells, header) <==> v != header && v in multiset(cells)
    ensures forall v :: v in Tally(cells, header) ==> Tally(cells, header)[v] == multiset(cells)[v]
    decreases |cells|
  {
    if cells != [] {
      var init := cells[..|cells| - 1];
      var data := cells[|cells| - 1];
      TallyCounts(init, header);
      assert cells == init + [data];
      assert multiset(cells) == multiset(init) + multiset{data};
    }
  }

  /** Arr.php:145-179. An empty (or "0") column name gives an empty result;
      otherwise exactly the normalised values other than the lower-cased
      column name that occur in more than one row, each with its number of
      rows. */
  function FindDuplicates(rows: seq<Row>, column: string, lowerCase: bool): (r: map<string, nat>)
    ensures IsEmptyString(column) ==> r == map[]
    ensures !IsEmptyString(column) ==>
      forall v :: v in r <==> v != Lower(column) && multiset(Normalised(rows, column, lowerCase))[v] > 1
    ensures !IsEmptyString(column) ==>
      forall v :: v in r ==> r[v] == multiset(Normalised(rows, column, lowerCase))[v]
  {
    if IsEmptyString(column) then map[]
    else
      var cells := Normalised(rows, column, lowerCase);
      var t := Tally(cells, Lower(column));
      TallyCounts(cells, Lower(column));
      map v | v in t && t[v] > 1 :: t[v]
  }

  // ----- Properties -----------------------------------------------------------

  lemma {:induction false} TrimLeftSkipsPadding(p: string, t: string)
    requires forall i :: 0 <= i < |p| ==> IsTrimmed(p[i])
    ensures TrimLeft(p + t) == TrimLeft(t)
    decreases |p|
  {
    if p != [] {
      assert (p + t)[0] == p[0];
      assert (p + t)[1..] == p[1..] + t;
      TrimLeftSkipsPadding(p[1..], t);
    } else {
      assert p + t == t;
    }
  }

  lemma {:induction false} TrimRightSkipsPadding(t: string, q: string)
    requires forall i :: 0 <= i < |q| ==> IsTrimmed(q[i])
    ensures TrimRight(t + q) == TrimRight(t)
    decreases |q|
  {
    if q != [] {
      var q' := q[..|q| - 1];
      assert (t + q)[|t + q| - 1] == q[|q| - 1];
      assert (t + q)[..|t + q| - 1] == t + q';
      TrimRightSkipsPadding(t, q');
    } else {
      assert t + q == t;
    }
  }

  /** `trim` removes exactly the padding: for a middle part that neither
      starts nor ends with a stripped character, any padding of stripped
      characters around it is removed and nothing else. */
  lemma TrimRemovesPadding(p: string, m: string, q: string)
    requires forall i :: 0 <= i < |p| ==> IsTrimmed(p[i])
    requires forall i :: 0 <= i < |q| ==> IsTrimmed(q[i])
    requires m == [] || (!IsTrimmed(m[0]) && !IsTrimmed(m[|m| - 1]))
    ensures Trim(p + m + q) == m
  {
    assert p + m + q == p + (m + q);
    TrimLeftSkipsPadding(p, m + q);
    if m == [] {
      assert m + q == q;
      assert q == q + [];
      TrimLeftSkipsPadding(q, []);
    } else {
      assert TrimLeft(m + q) == m + q;
      TrimRightSkipsPadding(m, q);
    }
  }

  lemma TrimIdempotent(s: string)
    ensures Trim(Trim(s)) == Trim(s)
  {
    var r := Trim(s);
    assert r == [] + r + [];
    TrimRemovesPadding([], r, []);
  }

  lemma LowerIdempotent(s: string)
    ensures Lower(Lower(s)) == Lower(s)
  {
    LowerSpec(s);
    LowerSpec(Lower(s));
  }

  /** Lower-casing keeps a trimmed string trimmed: no stripped character is
      a letter. */
  lemma TrimOfLower(s: string)
    requires Trim(s) == s
    ensures Trim(Lower(s)) == Lower(s)
  {
    var r := Lower(s);
    LowerPointwise(s);
    if s != [] {
      assert !IsTrimmed(s[0]) && !IsTrimmed(s[|s| - 1]);
      assert !IsTrimmed(r[0]) && !IsTrimmed(r[|r| - 1]);
    }
    assert r == [] + r + [];
    TrimRemovesPadding([], r, []);
  }

  /** Normalising a normalised value changes nothing. */
  lemma NormaliseIdempotent(cell: string, lowerCase: bool)
    ensures Normalise(Normalise(cell, lowerCase), lowerCase) == Normalise(cell, lowerCase)
  {
    var t := Trim(cell);
    TrimIdempotent(cell);
    if lowerCase {
      TrimOfLower(t);
      LowerIdempotent(t);
    }
  }

  lemma NormalisedAreNormal(rows: seq<Row>, column: string, lowerCase: bool)
    ensures forall v :: v in Normalised(rows, column, lowerCase) ==> Normalise(v, lowerCase) == v
  {
    var cells := Normalised(rows, column, lowerCase);
    forall i | 0 <= i < |cells| ensures Normalise(cells[i], lowerCase) == cells[i] {
      NormaliseIdempotent(Cell(rows[i], column), lowerCase);
    }
  }

  /** Every reported value is in normal form: trimmed, and lower-case when
      the flag is set. */
  lemma DuplicatesAreNormalised(rows: seq<Row>, column: string, lowerCase: bool)
    ensures forall v :: v in FindDuplicates(rows, column, lowerCase) ==> Normalise(v, lowerCase) == v
  {
    if !IsEmptyString(column) {
      NormalisedAreNormal(rows, column, lowerCase);
    }
  }

  /** A row whose cell is the column name itself (a header row) never counts,
      with or without the case flag. */
  lemma HeaderValueNeverReported(rows: seq<Row>, column: string, lowerCase: bool)
    ensures Lower(column) !in FindDuplicates(rows, column, lowerCase)
  {
  }

  /** A cell padded with stripped characters normalises to its lower-cased
      middle part. */
  lemma NormalisePadded(p: string, m: string, q: string)
    requires forall i :: 0 <= i < |p| ==> IsTrimmed(p[i])
    requires forall i :: 0 <= i < |q| ==> IsTrimmed(q[i])
    requires m == [] || (!IsTrimmed(m[0]) && !IsTrimmed(m[|m| - 1]))
    ensures Normalise(p + m + q, true) == Lower(m)
    ensures Normalise(p + m + q, false) == m
  {
    TrimRemovesPadding(p, m, q);
  }

  lemma ExampleLower()
    ensures Lower("Bob") == "bob" && Lower("bob") == "bob"
    ensures Lower("Anna") == "anna" && Lower("name") == "name"
  {
    assert Lower("b") == "b" && Lower("ob") == "ob";
    assert Lower("a") == "a" && Lower("na") == "na" && Lower("nna") == "nna";
    assert Lower("e") == "e" && Lower("me") == "me" && Lower("ame") == "ame";
  }

  lemma ExampleCellBob()
    ensures Normalise(" Bob", true) == "bob" && Normalise(" Bob", false) == "Bob"
  {
    ExampleLower();
    NormalisePadded(" ", "Bob", "");
    assert " " + "Bob" + "" == " Bob";
  }

  lemma ExampleCellBobPadded()
    ensures Normalise("bob ", true) == "bob" && Normalise("bob ", false) == "bob"
  {
    ExampleLower();
    NormalisePadded("", "bob", " ");
    assert "" + "bob" + " " == "bob ";
  }

  lemma ExampleCellAnna()
    ensures Normalise("Anna", true) == "anna" && Normalise("Anna", false) == "Anna"
  {
    ExampleLower();
    NormalisePadded("", "Anna", "");
    assert "" + "Anna" + "" == "Anna";
  }

  lemma NormalisedOfThree(rows: seq<Row>, column: string, lowerCase: bool, x: string, y: string, z: string)
    requires rows == [map[column := x], map[column := y], map[column := z]]
    ensures Normalised(rows, column, lowerCase)
         == [Normalise(x, lowerCase), Normalise(y, lowerCase), Normalise(z, lowerCase)]
  {
    assert Cell(rows[0], column) == x && Cell(rows[1], column) == y && Cell(rows[2], column) == z;
  }

  lemma ExampleTally(cells: seq<string>)
    requires cells == ["bob", "bob", "anna"]
    ensures Tally(cells, "name") == map["bob" := 2, "anna" := 1]
  {
    TallyCounts(cells, "name");
    assert multiset(cells)["bob"] == 2 && multiset(cells)["anna"] == 1;
  }

  /** Arr.php:145-179 on a small input: " Bob", "bob " and "Anna" give
      {"bob": 2} when lower-casing. */
  lemma ExampleDuplicates(rows: seq<Row>)
    requires rows == [map["name" := " Bob"], map["name" := "bob "], map["name" := "Anna"]]
    ensures FindDuplicates(rows, "name", true) == map["bob" := 2]
  {
    ExampleCellBob();
    ExampleCellBobPadded();
    ExampleCellAnna();
    ExampleLower();
    NormalisedOfThree(rows, "name", true, " Bob", "bob ", "Anna");
    ExampleTally(["bob", "bob", "anna"]);
  }

  /** The same rows without lower-casing: "Bob" and "bob" are different
      values, so nothing is reported. */
  lemma ExampleCaseKept(rows: seq<Row>)
    requires rows == [map["name" := " Bob"], map["name" := "bob "], map["name" := "Anna"]]
    ensures FindDuplicates(rows, "name", false) == map[]
  {
    ExampleCellBob();
    ExampleCellBobPadded();
    ExampleCellAnna();
    ExampleLower();
    NormalisedOfThree(rows, "name", false, " Bob", "bob ", "Anna");
    ExampleTallyKept(["Bob", "bob", "Anna"]);
  }

  lemma ExampleTallyKept(cells: seq<string>)
    requires cells == ["Bob", "bob", "Anna"]
    ensures Tally(cells, "name") == map["Bob" := 1, "bob" := 1, "Anna" := 1]
  {
    TallyCounts(cells, "name");
    assert multiset(cells)["Bob"] == 1 && multiset(cells)["bob"] == 1 && multiset(cells)["Anna"] == 1;
  }
}

=== FILE: flattening.dfy ===
/** `Arr::flatten`: walking a nested PHP array depth first, either keeping
    only the leaf values (the `array_walk_recursive` branch for an array) or
    yielding each leaf under its innermost key (the generator branch for a
    Traversable). */
module Flattening {
  import opened PhpArrays

  /** A value that is either a non-array (`Leaf`) or a nested array
      (`Node`, its entries in order). */
  datatype Tree<V> = Leaf(value: V) | Node(entries: Pairs<Tree<V>>)

  /** Every entry of `es` holds a value strictly inside `parent`; the walks
      below recurse on such entries, which is what makes them terminate. */
  ghost predicate Within<V>(es: Pairs<Tree<V>>, parent: Tree<V>)
  {
    forall i :: 0 <= i < |es| ==> es[i].1 < parent
  }

  // ----- The generator branch: leaf pairs under their innermost key -------

  /** The pairs yielded for the entry `k => t`: the entry itself when `t` is
      not an array, the walk of its entries otherwise. */
  function EntryPairs<V>(k: Key, t: Tree<V>): Pairs<V>
    decreases t
  {
    match t
    case Leaf(v) => [(k, v)]
    case Node(es) => EntriesPairs(es, t)
  }

  function EntriesPairs<V>(es: Pairs<Tree<V>>, ghost parent: Tree<V>): Pairs<V>
    requires Within(es, parent)
    decreases parent, |es|
  {
    if es == [] then [] else EntryPairs(es[0].0, es[0].1) + EntriesPairs(es[1..], parent)
  }

  /** Leaf pairs in depth-first pre-order, each under the key it has in its
      innermost array. */
  function WalkPairs<V>(s: Pairs<Tree<V>>): (r: Pairs<V>)
    ensures ValuesOf(r) == WalkValues(s)
  {
    ValuesOfWalk(s, Node(s));
    EntriesPairs(s, Node(s))
  }

  // ----- The array branch: leaf values only --------------------------------

  function EntryValues<V>(t: Tree<V>): seq<V>
    decreases t
  {
    match t
    case Leaf(v) => [v]
    case Node(es) => EntriesValues(es, t)
  }

  function EntriesValues<V>(es: Pairs<Tree<V>>, ghost parent: Tree<V>): (r: seq<V>)
    requires Within(es, parent)
    ensures (forall i :: 0 <= i < |es| ==> es[i].1.Leaf?) ==> |r| == |es|
    decreases parent, |es|
  {
    if es == [] then [] else EntryValues(es[0].1) + EntriesValues(es[1..], parent)
  }

  /** Leaf values in depth-first order, keys dropped: the list
      `array_walk_recursive` builds. */
  function WalkValues<V>(s: Pairs<Tree<V>>): (r: seq<V>)
    ensures (forall i :: 0 <= i < |s| ==> s[i].1.Leaf?) ==> |r| == |s|
  {
    EntriesValues(s, Node(s))
  }

  // ----- The operation -----------------------------------------------------

  /** The two result shapes: a list of values from an array, a stream of
      pairs from a Traversable. */
  datatype Flattened<V> = ValueList(values: seq<V>) | PairStream(pairs: Pairs<V>)

  /** Arr.php:120-143. An array is flattened to its leaf values, a
      Traversable to its leaf pairs; both branches visit the same leaves in
      the same order and differ only in dropping or keeping the keys. */
  function Flatten<V>(input: Iterable<Tree<V>>): (r: Flattened<V>)
    ensures input.Array? <==> r.ValueList?
    ensures r.ValueList? ==> r.values == ValuesOf(WalkPairs(input.Items()))
    ensures r.PairStream? ==> ValuesOf(r.pairs) == WalkValues(input.Items())
    ensures r.PairStream? ==>
      forall i :: 0 <= i < |r.pairs| ==> LeafUnder(Node(input.Items()), r.pairs[i].0, r.pairs[i].1)
  {
    ValuesOfWalk(input.Items(), Node(input.Items()));
    WalkPairsAreLeaves(input.Items());
    match input
    case Array(entries) => ValueList(WalkValues(entries))
    case Traversable(items) => PairStream(WalkPairs(items))
  }

  // ----- Properties ----------------------------------------------------------

  /** Dropping the keys of the pair walk gives the value walk. */
  lemma {:induction false} ValuesOfEntry<V>(k: Key, t: Tree<V>)
    ensures ValuesOf(EntryPairs(k, t)) == EntryValues(t)
    decreases t
  {
    match t
    case Leaf(v) =>
    case Node(es) => ValuesOfWalk(es, t);
  }

  lemma {:induction false} ValuesOfWalk<V>(es: Pairs<Tree<V>>, parent: Tree<V>)
    requires Within(es, parent)
    ensures ValuesOf(EntriesPairs(es, parent)) == EntriesValues(es, parent)
    decreases parent, |es|
  {
    if es != [] {
      ValuesOfEntry(es[0].0, es[0].1);
      ValuesOfWalk(es[1..], parent);
      var a, b := EntryPairs(es[0].0, es[0].1), EntriesPairs(es[1..], parent);
      assert ValuesOf(a + b) == ValuesOf(a) + ValuesOf(b);
    }
  }

  /** The pair walk does not depend on which enclosing value bounds it. */
  lemma {:induction false} EntriesPairsAnyParent<V>(es: Pairs<Tree<V>>, p: Tree<V>, q: Tree<V>)
    requires Within(es, p) && Within(es, q)
    ensures EntriesPairs(es, p) == EntriesPairs(es, q)
    decreases |es|
  {
    if es != [] {
      EntriesPairsAnyParent(es[1..], p, q);
    }
  }

  /** Walking `es` is walking its first entry, then the rest. */
  lemma WalkPairsUnfold<V>(es: Pairs<Tree<V>>)
    requires es != []
    ensures WalkPairs(es) == EntryPairs(es[0].0, es[0].1) + WalkPairs(es[1..])
  {
    EntriesPairsAnyParent(es[1..], Node(es), Node(es[1..]));
  }

  /** Flattening a concatenation is concatenating the flattenings, so a
      consumer that stops early has seen the walk of a prefix. */
  lemma {:induction false} WalkPairsAppend<V>(a: Pairs<Tree<V>>, b: Pairs<Tree<V>>)
    ensures WalkPairs(a + b) == WalkPairs(a) + WalkPairs(b)
    decreases |a|
  {
    if a == [] {
      assert a + b == b;
    } else {
      var t := a[1..];
      assert (a + b)[0] == a[0] && (a + b)[1..] == t + b;
      WalkPairsAppend(t, b);
      WalkPairsUnfold(a);
      WalkPairsUnfold(a + b);
    }
  }

  /** Without nested arrays, the value walk is the input's value list and
      the pair walk is the input itself, values unwrapped. */
  lemma {:induction false} WalkOfFlatInput<V>(s: Pairs<Tree<V>>)
    requires forall i :: 0 <= i < |s| ==> s[i].1.Leaf?
    ensures WalkPairs(s) == seq(|s|, i requires 0 <= i < |s| => (s[i].0, s[i].1.value))
    ensures WalkValues(s) == seq(|s|, i requires 0 <= i < |s| => s[i].1.value)
    decreases |s|
  {
    ValuesOfWalk(s, Node(s));
    if s != [] {
      WalkPairsUnfold(s);
      WalkOfFlatInput(s[1..]);
    }
  }

  /** `k => v`, with `v` not an array, is an entry of `t` or of an array
      nested in it, at any depth. */
  ghost predicate LeafUnder<V>(t: Tree<V>, k: Key, v: V)
    decreases t
  {
    t.Node? &&
    exists i :: 0 <= i < |t.entries| &&
      (t.entries[i] == (k, Leaf(v)) || LeafUnder(t.entries[i].1, k, v))
  }

  /** Every pair the walk yields is a leaf entry of the input, under the
      key it has in its innermost array. */
  lemma {:induction false} EntriesPairsAreLeaves<V>(es: Pairs<Tree<V>>, parent: Tree<V>, k: Key, v: V)
    requires Within(es, parent) && (k, v) in EntriesPairs(es, parent)
    ensures LeafUnder(Node(es), k, v)
    decreases parent, |es|
  {
    var head, rest := EntryPairs(es[0].0, es[0].1), EntriesPairs(es[1..], parent);
    if (k, v) in head {
      match es[0].1
      case Leaf(w) =>
        assert es[0] == (k, Leaf(v));
      case Node(inner) =>
        EntriesPairsAreLeaves(inner, es[0].1, k, v);
        assert LeafUnder(es[0].1, k, v);
    } else {
      assert (k, v) in rest;
      EntriesPairsAreLeaves(es[1..], parent, k, v);
      var i :| 0 <= i < |es[1..]| &&
        (es[1..][i] == (k, Leaf(v)) || LeafUnder(es[1..][i].1, k, v));
      assert es[i + 1] == es[1..][i];
    }
  }

  /** Every leaf entry of the input, at any depth, is yielded by the walk
      under its innermost key. */
  lemma {:induction false} LeavesAreEntriesPairs<V>(es: Pairs<Tree<V>>, parent: Tree<V>, k: Key, v: V)
    requires Within(es, parent) && LeafUnder(Node(es), k, v)
    ensures (k, v) in EntriesPairs(es, parent)
    decreases parent, |es|
  {
    var head, rest := EntryPairs(es[0].0, es[0].1), EntriesPairs(es[1..], parent);
    assert EntriesPairs(es, parent) == head + rest;
    if es[0] == (k, Leaf(v)) {
      assert head == [(k, v)];
    } else if LeafUnder(es[0].1, k, v) {
      var inner := es[0].1.entries;
      assert es[0].1 == Node(inner);
      LeavesAreEntriesPairs(inner, es[0].1, k, v);
    } else {
      var i :| 0 <= i < |es| && (es[i] == (k, Leaf(v)) || LeafUnder(es[i].1, k, v));
      assert i > 0;
      assert es[1..][i - 1] == es[i];
      LeavesAreEntriesPairs(es[1..], parent, k, v);
    }
  }

  /** The pair walk yields exactly the leaf entries of the input, each
      under the key it has in its innermost array. */
  lemma WalkPairsAreLeaves<V>(s: Pairs<Tree<V>>)
    ensures forall k, v :: (k, v) in WalkPairs(s) <==> LeafUnder(Node(s), k, v)
    ensures forall i :: 0 <= i < |WalkPairs(s)| ==> LeafUnder(Node(s), WalkPairs(s)[i].0, WalkPairs(s)[i].1)
  {
    forall k, v ensures (k, v) in WalkPairs(s) <==> LeafUnder(Node(s), k, v) {
      if (k, v) in WalkPairs(s) {
        EntriesPairsAreLeaves(s, Node(s), k, v);
      }
      if LeafUnder(Node(s), k, v) {
        LeavesAreEntriesPairs(s, Node(s), k, v);
      }
    }
    forall i | 0 <= i < |WalkPairs(s)|
      ensures LeafUnder(Node(s), WalkPairs(s)[i].0, WalkPairs(s)[i].1)
    {
      var p := WalkPairs(s)[i];
      assert (p.0, p.1) in WalkPairs(s);
      EntriesPairsAreLeaves(s, Node(s), p.0, p.1);
    }
  }

  // ----- The generator's state: an explicit stack of pending entry lists ----

  function EntrySize<V>(t: Tree<V>): nat
    decreases t
  {
    match t
    case Leaf(_) => 1
    case Node(es) => 1 + EntriesSize(es, t)
  }

  function EntriesSize<V>(es: Pairs<Tree<V>>, ghost parent: Tree<V>): nat
    requires Within(es, parent)
    decreases parent, |es|
  {
    if es == [] then 0 else EntrySize(es[0].1) + EntriesSize(es[1..], parent)
  }

  /** The number of values, leaves and nested arrays, still to visit in `es`. */
  function Weight<V>(es: Pairs<Tree<V>>): nat
  {
    EntriesSize(es, Node(es))
  }

  lemma {:induction false} EntriesSizeAnyParent<V>(es: Pairs<Tree<V>>, p: Tree<V>, q: Tree<V>)
    requires Within(es, p) && Within(es, q)
    ensures EntriesSize(es, p) == EntriesSize(es, q)
    decreases |es|
  {
    if es != [] {
      EntriesSizeAnyParent(es[1..], p, q);
    }
  }

  lemma WeightUnfold<V>(es: Pairs<Tree<V>>)
    requires es != []
    ensures Weight(es) == EntrySize(es[0].1) + Weight(es[1..])
  {
    EntriesSizeAnyParent(es[1..], Node(es), Node(es[1..]));
  }

  /** What the suspended walk still has to yield: the rest of the innermost
      list first, then the rest of each enclosing list. */
  function StackPairs<V>(stack: seq<Pairs<Tree<V>>>): Pairs<V>
  {
    if stack == [] then [] else WalkPairs(stack[|stack| - 1]) + StackPairs(stack[..|stack| - 1])
  }

  function StackWeight<V>(stack: seq<Pairs<Tree<V>>>): nat
  {
    if stack == [] then 0 else Weight(stack[|stack| - 1]) + StackWeight(stack[..|stack| - 1])
  }

  lemma StackPush<V>(below: seq<Pairs<Tree<V>>>, frame: Pairs<Tree<V>>)
    ensures StackPairs(below + [frame]) == WalkPairs(frame) + StackPairs(below)
    ensures StackWeight(below + [frame]) == Weight(frame) + StackWeight(below)
  {
    assert (below + [frame])[..|below|] == below;
  }

  /** Yielding a leaf: its pair comes out and the rest of its list stays
      pending. */
  lemma StepLeaf<V>(below: seq<Pairs<Tree<V>>>, top: Pairs<Tree<V>>, v: V)
    requires top != [] && top[0].1 == Leaf(v)
    ensures [(top[0].0, v)] + StackPairs(below + [top[1..]]) == StackPairs(below + [top])
    ensures StackWeight(below + [top[1..]]) < StackWeight(below + [top])
  {
    StackPush(below, top);
    StackPush(below, top[1..]);
    WalkPairsUnfold(top);
    WeightUnfold(top);
  }

  /** Entering a nested array: its entries go on top of the rest of the
      enclosing list. */
  lemma StepNode<V>(below: seq<Pairs<Tree<V>>>, top: Pairs<Tree<V>>, es: Pairs<Tree<V>>)
    requires top != [] && top[0].1 == Node(es)
    ensures StackPairs(below + [top[1..]] + [es]) == StackPairs(below + [top])
    ensures StackWeight(below + [top[1..]] + [es]) < StackWeight(below + [top])
  {
    StackPush(below, top);
    StackPush(below, top[1..]);
    StackPush(below + [top[1..]], es);
    WalkPairsUnfold(top);
    WeightUnfold(top);
  }

  /** The walk as a suspended generator runs it: a stack holding one
      pending entry list per open nesting level. It yields exactly
      `WalkPairs`. */
  method WalkWithStack<V>(s: Pairs<Tree<V>>) returns (out: Pairs<V>)
    ensures out == WalkPairs(s)
  {
    out := [];
    var stack := [s];
    StackPush([], s);
    assert [] + [s] == [s];
    while stack != []
      invariant out + StackPairs(stack) == WalkPairs(s)
      decreases StackWeight(stack), |stack|
    {
      var top, below := stack[|stack| - 1], stack[..|stack| - 1];
      assert stack == below + [top];
      if top == [] {
        StackPush(below, top);
        stack := below;
      } else {
        match top[0].1
        case Leaf(v) =>
          StepLeaf(below, top, v);
          out := out + [(top[0].0, v)];
          stack := below + [top[1..]];
        case Node(es) =>
          StepNode(below, top, es);
          stack := below + [top[1..]] + [es];
      }
    }
  }

  /** `{a: 1, b: {c: 2, d: {e: 3}}}` walks to `(a, 1), (c, 2), (e, 3)`, and
      to `[1, 2, 3]` with the keys dropped. */
  lemma NestedExample()
    ensures var input := [(StrKey("a"), Leaf(1)),
                          (StrKey("b"), Node([(StrKey("c"), Leaf(2)),
                                              (StrKey("d"), Node([(StrKey("e"), Leaf(3))]))]))];
      && WalkPairs(input) == [(StrKey("a"), 1), (StrKey("c"), 2), (StrKey("e"), 3)]
      && WalkValues(input) == [1, 2, 3]
  {
    var e := [(StrKey("e"), Leaf(3))];
    var b := [(StrKey("c"), Leaf(2)), (StrKey("d"), Node(e))];
    var input := [(StrKey("a"), Leaf(1)), (StrKey("b"), Node(b))];
    WalkOfFlatInput(e);
    WalkPairsUnfold(b);
    WalkPairsUnfold(b[1..]);
    WalkPairsUnfold(input);
    WalkPairsUnfold(input[1..]);
    ValuesOfWalk(input, Node(input));
  }

  /** Keys of different levels may collide: `{a: 1, b: {a: 2}}` yields the
      key `a` twice. */
  lemma CollidingKeysExample()
    ensures WalkPairs([(StrKey("a"), Leaf(1)), (StrKey("b"), Node([(StrKey("a"), Leaf(2))]))])
         == [(StrKey("a"), 1), (StrKey("a"), 2)]
  {
    var inner := [(StrKey("a"), Leaf(2))];
    var input := [(StrKey("a"), Leaf(1)), (StrKey("b"), Node(inner))];
    WalkOfFlatInput(inner);
    WalkPairsUnfold(input);
    WalkPairsUnfold(input[1..]);
  }

  // ----- The Traversable branch as written ---------------------------------

  /** Arr.php:127-133 as written: the recursive call on line 129 is a bare
      `flatten(...)`, which names no function in namespace `EM\Utils` nor a
      global one, so the first nested array raises an error that ends the
      stream. The result holds the pairs yielded before that, and whether the
      error was raised: the leading leaves, unwrapped, up to the first nested
      array, where the error is raised, or up to the end if there is none. */
  function StreamAsWritten<V>(s: Pairs<Tree<V>>): (r: (Pairs<V>, bool))
    ensures r.1 <==> exists i :: 0 <= i < |s| && s[i].1.Node?
    ensures |r.0| <= |s|
    ensures forall i :: 0 <= i < |r.0| ==> s[i].1.Leaf? && r.0[i] == (s[i].0, s[i].1.value)
    ensures r.1 ==> |r.0| < |s| && s[|r.0|].1.Node?
    ensures !r.1 ==> |r.0| == |s|
  {
    if s == [] then ([], false)
    else
      match s[0].1
      case Leaf(v) =>
        var rest := StreamAsWritten(s[1..]);
        assert forall i :: 0 < i < |s| ==> s[i] == s[1..][i - 1];
        ([(s[0].0, v)] + rest.0, rest.1)
      case Node(_) => ([], true)
  }

  /** Where the first nested array sits at `n`, the stream as written is the
      intended walk of the `n` leaves before it, cut off by the error. */
  lemma StreamAsWrittenStopsAtFirstNested<V>(s: Pairs<Tree<V>>, n: nat)
    requires n < |s| && s[n].1.Node? && forall i :: 0 <= i < n ==> s[i].1.Leaf?
    ensures StreamAsWritten(s) == (WalkPairs(s[..n]), true)
  {
    var r := StreamAsWritten(s);
    var p := s[..n];
    assert r.1 by { assert s[n].1.Node?; }
    assert |r.0| == n;
    assert forall i :: 0 <= i < |p| ==> p[i].1.Leaf? by {
      forall i | 0 <= i < |p| ensures p[i].1.Leaf? { assert p[i] == s[i]; }
    }
    WalkOfFlatInput(p);
    var w := WalkPairs(p);
    assert |w| == n;
    forall i | 0 <= i < n ensures r.0[i] == w[i] {
      assert p[i] == s[i];
    }
    assert r.0 == w;
  }

  /** What the stream as written yields is always a prefix of the intended
      walk, and all of it when there is no nested array. */
  lemma {:induction false} StreamAsWrittenIsPrefix<V>(s: Pairs<Tree<V>>)
    ensures var r := StreamAsWritten(s);
      r.0 <= WalkPairs(s) && (!r.1 ==> r.0 == WalkPairs(s))
    decreases |s|
  {
    if s != [] {
      WalkPairsUnfold(s);
      if s[0].1.Leaf? {
        StreamAsWrittenIsPrefix(s[1..]);
      }
    }
  }

  /** `{a: 1, b: {c: 2}}`: the stream as written stops with an error after
      `a => 1`, where the intended walk goes on to `c => 2`. */
  lemma NestedArrayHaltsStream()
    ensures var input := [(StrKey("a"), Leaf(1)), (StrKey("b"), Node([(StrKey("c"), Leaf(2))]))];
      && StreamAsWritten(input) == ([(StrKey("a"), 1)], true)
      && WalkPairs(input) == [(StrKey("a"), 1), (StrKey("c"), 2)]
  {
    var inner := [(StrKey("c"), Leaf(2))];
    var input := [(StrKey("a"), Leaf(1)), (StrKey("b"), Node(inner))];
    WalkOfFlatInput(inner);
    WalkPairsUnfold(input);
    WalkPairsUnfold(input[1..]);
    assert input[1..][1..] == [];
    assert input[1..][0].1.Node?;
    assert StreamAsWritten(input[1..]) == ([], true);
    assert StreamAsWritten(input) == ([(StrKey("a"), 1)] + [], true);
    assert [(StrKey("a"), 1)] + [] == [(StrKey("a"), 1)];
    assert WalkPairs(input) == [(StrKey("a"), 1)] + [(StrKey("c"), 2)];
  }
}

=== FILE: ints.dfy ===
/** Small integer helpers shared by the run arithmetic of `chunk` and the
    progressions of `range`. */
module Ints {

  function Min(a: int, b: int): int { if a <= b then a else b }

  function Max(a: int, b: int): int { if a <= b then b else a }

  function Abs(x: int): nat { if x < 0 then -x else x }

  /** Division is the unique quotient: `x == q * k + r` with `0 <= r < k`
      fixes `x / k == q`. */
  lemma DivUnique(x: int, k: int, q: int, r: int)
    requires k > 0 && 0 <= r < k && x == q * k + r
    ensures x / k == q
  {
    var d := q - x / k;
    assert x == (x / k) * k + x % k;
    assert d * k == x % k - r;
  }

  lemma DivStep(x: nat, k: nat)
    requires k > 0 && x >= k
    ensures x / k == (x - k) / k + 1
  {
    var q, r := (x - k) / k, (x - k) % k;
    assert x - k == q * k + r;
    assert x == (q + 1) * k + r;
    DivUnique(x, k, q + 1, r);
  }

  lemma DivOne(x: nat, k: nat)
    requires 0 < k <= x < 2 * k
    ensures x / k == 1
  {
    DivUnique(x, k, 1, x - k);
  }

  lemma DivZero(x: nat, k: nat)
    requires x < k
    ensures x / k == 0
  {
  }
}

=== FILE: mapping.dfy ===
/** `Arr::map`: applying a function to every value while keeping the keys,
    by a generator on a Traversable and by `array_map` on an array. */
module Mapping {
  import opened PhpArrays

  /** Pairs each key with the function applied to its value, position by
      position. */
  function MapValues<V, W>(f: V -> W, s: Pairs<V>): (r: Pairs<W>)
    ensures |r| == |s|
    ensures forall i :: 0 <= i < |s| ==> r[i] == (s[i].0, f(s[i].1))
    decreases |s|
  {
    if s == [] then [] else [(s[0].0, f(s[0].1))] + MapValues(f, s[1..])
  }

  /** Arr.php:82-99. Both branches keep the keys and their order: the
      generator yields `$key => $function($value)`, and `array_map` with a
      single array preserves its keys. An array stays an array. */
  function Map<V, W>(f: V -> W, input: Iterable<V>): (r: Iterable<W>)
    ensures input.Array? <==> r.Array?
    ensures KeysOf(r.Items()) == KeysOf(input.Items())
    ensures ValuesOf(r.Items()) == seq(|input.Items()|, i requires 0 <= i < |input.Items()| => f(input.Items()[i].1))
    ensures input.Valid() ==> r.Valid()
  {
    match input
    case Array(entries) =>
      var mapped := MapValues(f, entries);
      assert KeysOf(mapped) == KeysOf(entries);
      Array(mapped)
    case Traversable(items) => Traversable(MapValues(f, items))
  }

  /** Mapping an empty input gives an empty output, in both branches. */
  lemma MapEmpty<V, W>(f: V -> W, input: Iterable<V>)
    requires input.Items() == []
    ensures Map(f, input).Items() == []
  {
  }

  /** Mapping is done pair by pair: mapping a stream in two pieces is
      mapping it whole, so a consumer that stops early has seen exactly the
      mapped prefix. */
  lemma {:induction false} MapValuesAppend<V, W>(f: V -> W, s: Pairs<V>, t: Pairs<V>)
    ensures MapValues(f, s + t) == MapValues(f, s) + MapValues(f, t)
    decreases |s|
  {
    if s != [] {
      assert (s + t)[1..] == s[1..] + t;
      MapValuesAppend(f, s[1..], t);
    }
  }

  /** Mapping twice is mapping once with the composed function. */
  lemma MapValuesCompose<U, V, W>(f: U -> V, g: V -> W, s: Pairs<U>)
    ensures MapValues(g, MapValues(f, s)) == MapValues(x => g(f(x)), s)
  {
  }

  /** Mapping with the identity gives the input back. */
  lemma MapValuesIdentity<V>(s: Pairs<V>)
    ensures MapValues(x => x, s) == s
  {
  }
}

=== FILE: php_arrays.dfy ===
/** The slice of PHP's value model the helpers of `Arr` rely on: ordered
    key/value lists, the array write `$a[$k] = $v`, the append `$a[] = $v`,
    and the two shapes an `iterable` argument can take. */
module PhpArrays {
  import opened Results

  /** A PHP array key is an integer or a string. */
  datatype Key = IntKey(n: int) | StrKey(s: string)

  /** An ordered list of key/value pairs. Iterating a PHP array yields one
      with pairwise distinct keys; a Traversable may repeat a key. */
  type Pairs<V> = seq<(Key, V)>

  function KeysOf<V>(a: Pairs<V>): seq<Key>
  {
    seq(|a|, i requires 0 <= i < |a| => a[i].0)
  }

  function ValuesOf<V>(a: Pairs<V>): seq<V>
  {
    seq(|a|, i requires 0 <= i < |a| => a[i].1)
  }

  /** The keys occurring in `a`, as a set. */
  function KeySet<V>(a: Pairs<V>): set<Key>
  {
    set i | 0 <= i < |a| :: a[i].0
  }

  /** Every key occurs once: the shape of every PHP array. */
  predicate UniqueKeys<V>(a: Pairs<V>)
  {
    forall i, j :: 0 <= i < j < |a| ==> a[i].0 != a[j].0
  }

  /** `$a[$k] = $v` on an array: an existing key keeps its position and
      takes the new value; a new key goes to the end. */
  function Assign<V>(a: Pairs<V>, k: Key, v: V): (r: Pairs<V>)
    ensures forall i :: 0 <= i < |r| && r[i].0 == k ==> r[i].1 == v
    ensures |r| == if k in KeySet(a) then |a| else |a| + 1
  {
    if k in KeySet(a) then
      seq(|a|, i requires 0 <= i < |a| => if a[i].0 == k then (k, v) else a[i])
    else
      a + [(k, v)]
  }

  /** An assignment keeps the key order, adds the written key to the key
      set, leaves every other entry at its position, and puts a new key
      last; it holds no pair but the written one and the old ones, and on
      an array it yields an array. */
  lemma AssignSemantics<V>(a: Pairs<V>, k: Key, v: V)
    ensures k in KeySet(a) ==> KeysOf(Assign(a, k, v)) == KeysOf(a)
    ensures k !in KeySet(a) ==> Assign(a, k, v) == a + [(k, v)]
    ensures KeySet(Assign(a, k, v)) == KeySet(a) + {k}
    ensures UniqueKeys(a) ==> UniqueKeys(Assign(a, k, v))
    ensures (k, v) in Assign(a, k, v)
    ensures forall i :: 0 <= i < |a| && a[i].0 != k ==> Assign(a, k, v)[i] == a[i]
    ensures forall i :: 0 <= i < |a| && a[i].0 != k ==> a[i] in Assign(a, k, v)
    ensures forall q :: q in Assign(a, k, v) ==> q == (k, v) || q in a
  {
    var r := Assign(a, k, v);
    if k in KeySet(a) {
      var j :| 0 <= j < |a| && a[j].0 == k;
      assert r[j] == (k, v);
      assert KeysOf(r) == KeysOf(a);
      assert forall i :: 0 <= i < |a| && a[i].0 != k ==> r[i] == a[i];
      forall q | q in r ensures q == (k, v) || q in a {
        var i :| 0 <= i < |r| && r[i] == q;
        if a[i].0 != k { assert q == a[i]; }
      }
      assert KeySet(r) == KeySet(a) by {
        forall x | x in KeySet(r) ensures x in KeySet(a) {
          var i :| 0 <= i < |r| && r[i].0 == x;
          assert a[i].0 == x;
        }
        forall x | x in KeySet(a) ensures x in KeySet(r) {
          var i :| 0 <= i < |a| && a[i].0 == x;
          assert r[i].0 == x;
        }
      }
    } else {
      assert r[|a|] == (k, v);
      assert forall i :: 0 <= i < |a| ==> r[i] == a[i];
      assert KeySet(r) == KeySet(a) + {k} by {
        forall x | x in KeySet(r) ensures x in KeySet(a) + {k} {
          var i :| 0 <= i < |r| && r[i].0 == x;
          if i < |a| { assert a[i].0 == x; }
        }
        forall x | x in KeySet(a) + {k} ensures x in KeySet(r) {
          if x == k { assert r[|a|].0 == x; }
          else {
            var i :| 0 <= i < |a| && a[i].0 == x;
            assert r[i].0 == x;
          }
        }
      }
    }
  }

  /** The key `$a[] = $v` chooses: one past the largest non-negative integer
      key, or 0 when there is none. */
  function NextIndex<V>(a: Pairs<V>): (n: nat)
    ensures forall i :: 0 <= i < |a| && a[i].0.IntKey? ==> a[i].0.n < n
  {
    if a == [] then 0
    else
      var m := NextIndex(a[..|a| - 1]);
      var k := a[|a| - 1].0;
      if k.IntKey? && k.n >= m then k.n + 1 else m
  }

  /** `$a[] = $v`: appends under a fresh integer key. */
  function Push<V>(a: Pairs<V>, v: V): (r: Pairs<V>)
    ensures r == a + [(IntKey(NextIndex(a)), v)]
  {
    assert IntKey(NextIndex(a)) !in KeySet(a);
    Assign(a, IntKey(NextIndex(a)), v)
  }

  /** Appending under a fresh key keeps a PHP array's keys distinct. */
  lemma PushKeepsKeysUnique<V>(a: Pairs<V>, v: V)
    requires UniqueKeys(a)
    ensures UniqueKeys(Push(a, v))
  {
    AssignSemantics(a, IntKey(NextIndex(a)), v);
  }

  /** A list of values under the keys 0, 1, 2, ... */
  function Reindex<V>(vs: seq<V>): Pairs<V>
  {
    seq(|vs|, i requires 0 <= i < |vs| => (IntKey(i), vs[i]))
  }

  /** Appending to a re-indexed list continues its numbering. */
  lemma {:induction false} NextIndexOfReindex<V>(vs: seq<V>)
    ensures NextIndex(Reindex(vs)) == |vs|
    decreases |vs|
  {
    if vs != [] {
      var a := Reindex(vs);
      assert a[..|a| - 1] == Reindex(vs[..|vs| - 1]);
      NextIndexOfReindex(vs[..|vs| - 1]);
    }
  }

  /** The two shapes of a PHP `iterable`: an array, whose keys are distinct,
      or a Traversable, modelled by the finite list of pairs it yields. */
  datatype Iterable<V> = Array(entries: Pairs<V>) | Traversable(items: Pairs<V>)
  {
    predicate Valid()
    {
      Array? ==> UniqueKeys(entries)
    }

    /** The pairs a `foreach` over the argument visits, in order. */
    function Items(): Pairs<V>
    {
      match this
      case Array(e) => e
      case Traversable(i) => i
    }
  }
}

=== FILE: ranges.dfy ===
/** `Arr::range`: the inclusive arithmetic progression from `start` towards
    `stop`, or an error when the step points the wrong way. */
module Ranges {
  import opened Results
  import opened Ints

  datatype RangeError =
    | StepMustBeNegative  // start > stop, step >= 0
    | StepMustBePositive  // start < stop, step <= 0

  /** The loop of Arr.php:199-201: `i`, `i + step`, ... while not past `stop`. */
  function Ascending(i: int, stop: int, step: int): (r: seq<int>)
    requires step > 0
    ensures r != [] <==> i <= stop
    ensures r != [] ==> r[0] == i && r[|r| - 1] <= stop < r[|r| - 1] + step
    decreases stop - i
  {
    if i > stop then [] else [i] + Ascending(i + step, stop, step)
  }

  /** The loop of Arr.php:191-193: `i`, `i + step`, ... while not below `stop`. */
  function Descending(i: int, stop: int, step: int): (r: seq<int>)
    requires step < 0
    ensures r != [] <==> i >= stop
    ensures r != [] ==> r[0] == i && stop <= r[|r| - 1] && r[|r| - 1] + step < stop
    decreases i - stop
  {
    if i < stop then [] else [i] + Descending(i + step, stop, step)
  }

  /** Arr.php:184-206. Equal bounds give the single value; otherwise the step
      must point from `start` towards `stop`, and the result walks from
      `start` in steps of `step`. */
  function Range(start: int, stop: int, step: int): (r: Result<seq<int>, RangeError>)
    ensures start == stop ==> r == Ok([start])
    ensures r.Err? <==> (start > stop && step >= 0) || (start < stop && step <= 0)
    ensures r.Err? ==> r.error == (if start > stop then StepMustBeNegative else StepMustBePositive)
    ensures r.Ok? ==> |r.value| > 0 && r.value[0] == start
  {
    if start > stop then
      if step >= 0 then Err(StepMustBeNegative) else Ok(Descending(start, stop, step))
    else if start < stop then
      if step <= 0 then Err(StepMustBePositive) else Ok(Ascending(start, stop, step))
    else
      Ok([start])
  }

  // ----- The progression -------------------------------------------------------

  lemma Distribute(i: int, j: int, step: int)
    requires j > 0
    ensures (i + step) + (j - 1) * step == i + j * step
  {
  }

  /** The ascending walk holds exactly `i + j * step` at index `j`, and its
      length `n` is the one with the last value at most `stop` and the next
      one past it. */
  lemma {:induction false} AscendingIsProgression(i: int, stop: int, step: int)
    requires step > 0
    ensures var r := Ascending(i, stop, step);
      && (forall j :: 0 <= j < |r| ==> r[j] == i + j * step)
      && (r == [] <==> i > stop)
      && (r != [] ==> r[|r| - 1] <= stop)
      && i + |r| * step > stop
    decreases stop - i
  {
    var r := Ascending(i, stop, step);
    if i <= stop {
      var rest := Ascending(i + step, stop, step);
      AscendingIsProgression(i + step, stop, step);
      assert r == [i] + rest;
      forall j | 0 < j < |r| ensures r[j] == i + j * step {
        assert r[j] == rest[j - 1];
        Distribute(i, j, step);
      }
      Distribute(i, |r|, step);
    }
  }

  /** The descending walk holds exactly `i + j * step` at index `j`, and its
      length `n` is the one with the last value at least `stop` and the next
      one below it. */
  lemma {:induction false} DescendingIsProgression(i: int, stop: int, step: int)
    requires step < 0
    ensures var r := Descending(i, stop, step);
      && (forall j :: 0 <= j < |r| ==> r[j] == i + j * step)
      && (r == [] <==> i < stop)
      && (r != [] ==> r[|r| - 1] >= stop)
      && i + |r| * step < stop
    decreases i - stop
  {
    var r := Descending(i, stop, step);
    if i >= stop {
      var rest := Descending(i + step, stop, step);
      DescendingIsProgression(i + step, stop, step);
      assert r == [i] + rest;
      forall j | 0 < j < |r| ensures r[j] == i + j * step {
        assert r[j] == rest[j - 1];
        Distribute(i, j, step);
      }
      Distribute(i, |r|, step);
    }
  }

  /** Every value of a successful range lies between `start` and `stop`
      inclusive, consecutive values differ by `step`, and (unless the bounds
      are equal) the value after the last one is past `stop`. */
  lemma RangeIsProgression(start: int, stop: int, step: int)
    requires Range(start, stop, step).Ok?
    ensures var s := Range(start, stop, step).value;
      && (forall j :: 0 <= j < |s| ==> s[j] == start + j * step)
      && (forall j :: 0 <= j < |s| ==> Min(start, stop) <= s[j] <= Max(start, stop))
      && (start < stop ==> start + |s| * step > stop)
      && (start > stop ==> start + |s| * step < stop)
  {
    var s := Range(start, stop, step).value;
    if start < stop {
      AscendingIsProgression(start, stop, step);
      MonotoneUp(start, step, |s|);
    } else if start > stop {
      DescendingIsProgression(start, stop, step);
      MonotoneDown(start, step, |s|);
    }
  }

  lemma MonotoneUp(start: int, step: int, n: nat)
    requires step > 0
    ensures forall j :: 0 <= j < n ==> start <= start + j * step <= start + (n - 1) * step
  {
    forall j | 0 <= j < n ensures start <= start + j * step <= start + (n - 1) * step {
      MulMonotone(0, j, step);
      MulMonotone(j, n - 1, step);
    }
  }

  lemma MonotoneDown(start: int, step: int, n: nat)
    requires step < 0
    ensures forall j :: 0 <= j < n ==> start + (n - 1) * step <= start + j * step <= start
  {
    forall j | 0 <= j < n ensures start + (n - 1) * step <= start + j * step <= start {
      MulMonotone(0, j, -step);
      MulMonotone(j, n - 1, -step);
      assert j * -step == -(j * step) && (n - 1) * -step == -((n - 1) * step);
    }
  }

  /** An independent closed form: `|stop - start| / |step| + 1` values,
      `start + j * step` at each index `j`. */
  function Progression(start: int, stop: int, step: int): seq<int>
    requires step != 0
  {
    seq(Abs(stop - start) / Abs(step) + 1, j => start + j * step)
  }

  lemma RangeLength(start: int, stop: int, step: int)
    requires Range(start, stop, step).Ok? && step != 0
    ensures Abs(stop - start) / Abs(step) + 1 == |Range(start, stop, step).value|
  {
    if start < stop {
      AscendingLength(start, stop, step);
    } else if start > stop {
      DescendingLength(start, stop, step);
    }
  }

  lemma AscendingLength(start: int, stop: int, step: int)
    requires start <= stop && step > 0
    ensures (stop - start) / step + 1 == |Ascending(start, stop, step)|
  {
    var n := |Ascending(start, stop, step)|;
    assert (n - 1) * step <= stop - start < n * step by {
      AscendingIsProgression(start, stop, step);
    }
    CountFromBounds(stop - start, step, n);
  }

  lemma DescendingLength(start: int, stop: int, step: int)
    requires start >= stop && step < 0
    ensures (start - stop) / -step + 1 == |Descending(start, stop, step)|
  {
    var n := |Descending(start, stop, step)|;
    assert (n - 1) * step >= -(start - stop) > n * step by {
      DescendingIsProgression(start, stop, step);
    }
    NegatedBounds(start - stop, step, n);
    CountFromBounds(start - stop, -step, n);
  }

  lemma RangeClosedForm(start: int, stop: int, step: int)
    requires Range(start, stop, step).Ok? && step != 0
    ensures Range(start, stop, step).value == Progression(start, stop, step)
  {
    RangeLength(start, stop, step);
    RangeIsProgression(start, stop, step);
  }

  lemma NegatedBounds(d: int, step: int, n: int)
    requires step < 0
    requires (n - 1) * step >= -d > n * step
    ensures (n - 1) * -step <= d < n * -step
  {
  }

  /** The number of values, recovered by division from the bounds the walk
      satisfies. */
  lemma CountFromBounds(d: int, step: int, n: int)
    requires d >= 0 && step > 0 && n >= 1
    requires (n - 1) * step <= d < n * step
    ensures d / step == n - 1
  {
    var q := d / step;
    assert d == q * step + d % step;
    if q < n - 1 {
      MulMonotone(q + 1, n - 1, step);
    } else if q > n - 1 {
      MulMonotone(n, q, step);
    }
  }

  lemma MulMonotone(a: int, b: int, c: int)
    requires a <= b && c > 0
    ensures a * c <= b * c
  {
    assert b * c - a * c == (b - a) * c;
  }

  // ----- Examples --------------------------------------------------------------

  lemma AscendingExamples()
    ensures Range(1, 4, 1) == Ok([1, 2, 3, 4])
    ensures Range(0, 10, 4) == Ok([0, 4, 8])
  {
    assert Ascending(5, 4, 1) == [];
    assert Ascending(4, 4, 1) == [4];
    assert Ascending(3, 4, 1) == [3, 4];
    assert Ascending(2, 4, 1) == [2, 3, 4];
    assert Ascending(1, 4, 1) == [1, 2, 3, 4];
    assert Ascending(12, 10, 4) == [];
    assert Ascending(8, 10, 4) == [8];
    assert Ascending(4, 10, 4) == [4, 8];
    assert Ascending(0, 10, 4) == [0, 4, 8];
  }

  lemma DescendingExamples()
    ensures Range(5, 1, -2) == Ok([5, 3, 1])
    ensures Range(5, 0, -2) == Ok([5, 3, 1])
  {
    assert Descending(-1, 1, -2) == [];
    assert Descending(1, 1, -2) == [1];
    assert Descending(3, 1, -2) == [3, 1];
    assert Descending(5, 1, -2) == [5, 3, 1];
    assert Descending(-1, 0, -2) == [];
    assert Descending(1, 0, -2) == [1];
    assert Descending(3, 0, -2) == [3, 1];
    assert Descending(5, 0, -2) == [5, 3, 1];
  }

  lemma EdgeExamples()
    ensures Range(3, 3, 0) == Ok([3])
    ensures Range(5, 1, 1) == Err(StepMustBeNegative)
    ensures Range(1, 5, 0) == Err(StepMustBePositive)
  {
  }
}

=== FILE: results.dfy ===
/** Failure-carrying values: `Option` for a call that answers PHP's `false`,
    `Result` for a call that throws. */
module Results {

  /** `None` stands for the `false` a helper returns on an invalid argument. */
  datatype Option<+T> = None | Some(value: T)

  /** `Err` stands for an exception raised at call time. */
  datatype Result<+T, +E> = Ok(value: T) | Err(error: E)
}
